=== FILE: README.md ===
# Maria, the interactive avatar: a Dafny model of the chat core

Maria is a web avatar. It answers typed or spoken messages through a chat
route backed by a language model, and shows one of four faces: happy, sad,
surprised or closed eyes. This project models the parts of the repository
that decide what the avatar says, shows and speaks:

- the two keyword emotion classifiers: the chat route's whole-word one and
  the client library's substring-counting one;
- the chat route's `POST` handler with its system prompt, fallbacks and error
  replies, and the library's `chatWithGroq`;
- one spoken turn (`startVoiceInteraction`), written as the ordered list of
  calls it makes on its callbacks and devices;
- the page state of `InteractiveAvatar` with its handlers and its two
  effects, plus the handlers of `AvatarControls`. The effects are the welcome
  message that follows the language, and the volume retarget;
- the picture of `AvatarImage`: the image chosen for an emotion, and its
  loaded/error flags.

Modules, one file each:

| module | file | models |
|---|---|---|
| `Js` | js.dfy | optional fields, JSON field values and truthiness, IEEE numbers as the volume logic sees them |
| `Emotions` | emotions.dfy | the four emotions and the shared "first maximum, happy on zero" rule |
| `Text` | text.dfy | lower-casing, `split(/\s+/)`, `includes`, `trim` |
| `Prompts` | prompts.dfy | the persona prompts, language labels and apologies |
| `ServerClassifier` | server_classifier.dfy | `detectEmotion` of src/app/api/chat/route.ts |
| `LibraryClassifier` | library_classifier.dfy | `detectEmotion` of src/lib/groq.ts |
| `ChatRoute` | chat_route.dfy | `POST` of src/app/api/chat/route.ts |
| `GroqClient` | groq_client.dfy | `chatWithGroq` and `getSystemPrompt` of src/lib/groq.ts |
| `Voice` | voice.dfy | `startVoiceInteraction` of src/lib/voice.ts |
| `InteractiveAvatar` | interactive_avatar.dfy | page state, handlers and effects of src/components/InteractiveAvatar.tsx |
| `AvatarControls` | avatar_controls.dfy | the handlers of src/components/AvatarControls.tsx |
| `AvatarImage` | avatar_image.dfy | src/components/AvatarImage.tsx |
| `Session` | session.dfy | whole runs of events on the page, and invariants over them |

Inputs replace everything asynchronous or external:

- the parsed request body and the completion's outcome;
- the speech capture, the chat reply and the device's voices.

A React handler is one atomic function from page state to page state. A
callback created at render time gets the state it was rendered with as a
separate `from` argument, so stale closures are modelled. After each event,
`Session.Step` runs the effects whose dependencies changed. The comparison
is by `Object.is`, and the effects run in declaration order.
Controls the page does not render do nothing: typing and submitting need the
open text box, and the volume bar needs the shown slider.

## Model

| member | source | states |
|---|---|---|
| Emotions.Pick | src/app/api/chat/route.ts:43-48 | the chosen emotion has the highest score, and every emotion earlier in the order happy, sad, surprised, closed_eyes scores strictly less |
| Emotions.FirstMaxUnique | src/lib/groq.ts:40-43 | only one emotion has that first-maximum property, so ties always go to the earlier emotion |
| Text.Lower | src/app/api/chat/route.ts:13 | lower-casing keeps the length and maps each character on its own |
| Text.LowerKeepsSpaces | src/app/api/chat/route.ts:13-28 | lower-casing neither adds nor removes whitespace, so word boundaries stay where they are |
| Text.Split | src/app/api/chat/route.ts:28 | `split(/\s+/)` always gives at least one field, and no field contains whitespace |
| Text.SplitWords | src/app/api/chat/route.ts:28-33 | a non-empty word without whitespace is a field of the split exactly when it occurs in the text bounded by whitespace or by the ends of the text |
| Text.SplitJoin | src/app/api/chat/route.ts:28 | splitting non-empty words joined by single spaces gives the words back |
| Text.IncludesOccurs | src/lib/groq.ts:27-30 | `includes` holds exactly when the word occurs at some position of the text |
| Text.Trim | src/components/InteractiveAvatar.tsx:89-91 | the trimmed text is empty exactly when the input is all whitespace. Otherwise it starts and ends with a non-space and sits in the input with only whitespace around it |
| Text.TrimIdempotent | src/components/InteractiveAvatar.tsx:89-91 | trimming a trimmed message changes nothing |
| Prompts.SystemPrompt | src/app/api/chat/route.ts:52-66 | each persona gets its own prompt, and only a value that is not one of the three persona strings gets the generic one |
| Prompts.PromptsDistinct | src/lib/groq.ts:85-99 | the four prompts differ from each other |
| Prompts.PersonaOrText | src/app/api/chat/route.ts:88 | a falsy persona becomes `text`; a truthy one is kept |
| Prompts.LanguageLabel | src/app/api/chat/route.ts:81-89 | a falsy language means Portuguese. Otherwise the value is looked up by its property key: "pt", "en" and "fr" give their labels, whether the value is a string or not, and every other key gives `undefined` |
| Prompts.ArrayLanguageIsLabelled | src/app/api/chat/route.ts:89 | a language sent as `["en"]` is looked up as "en" and gets English; an object's key "[object Object]" gets no label |
| Prompts.RouteSystemPrompt | src/app/api/chat/route.ts:81-89 | the route's system message is the persona prompt followed by " Always respond in <label>.". The label is Portuguese for a falsy language or the key "pt", English for "en" and French for "fr". Any other key prints as `undefined` |
| ServerClassifier.DetectEmotion | src/app/api/chat/route.ts:12-49 | the result is the first maximum of the four presence scores, and happy when its score is zero |
| ServerClassifier.PresenceIsFound | src/app/api/chat/route.ts:30-33 | a list scores exactly when one of its entries occurs in the lower-cased text as a whole word |
| ServerClassifier.DetectEmotionMeaning | src/app/api/chat/route.ts:12-49 | for each of the four emotions, when it is the result: happy iff a positive word is present or no other list matches. Sad iff no positive word and a negative one. Surprised iff neither and a surprise word. Closed eyes iff only a sleepy word |
| ServerClassifier.ScoresArePresence | src/app/api/chat/route.ts:30-41 | each score is 0 or 1, and is 1 exactly when a keyword of that list is a whole word of the text |
| ServerClassifier.NoKeywordIsHappy | src/app/api/chat/route.ts:45-46 | a text with no keyword as a whole word is happy |
| ServerClassifier.MultiWordEntriesNeverMatch | src/app/api/chat/route.ts:22-28 | the entries "oh mon dieu" and "oh my god" are listed, but no token can ever equal them |
| ServerClassifier.ClassifyJoined | src/app/api/chat/route.ts:28-48 | for a text made of space-joined words, the result depends only on which lists contain those words |
| ServerClassifier.SadSentence | src/app/api/chat/route.ts:19-33 | "Estou muito triste hoje" is sad |
| ServerClassifier.PunctuationHidesKeyword | src/app/api/chat/route.ts:28-33 | "Estou triste." is happy: the token "triste." is not the keyword |
| ServerClassifier.PhraseIsHappy | src/app/api/chat/route.ts:22-33 | "oh my god" is happy, although it is a surprise entry |
| ServerClassifier.NomeIsHappy | src/app/api/chat/route.ts:28-46 | "nome" is happy for the chat route |
| ServerClassifier.EmptyReplyIsHappy | src/app/api/chat/route.ts:107-111 | the apology that replaces an empty completion contains no keyword and is happy |
| ServerClassifier.NoListedWordIsHappy | src/app/api/chat/route.ts:28-46 | a text whose tokens are in no list is happy |
| ServerClassifier.EmptyIsHappy | src/app/api/chat/route.ts:28-46 | the empty text is happy |
| LibraryClassifier.Count | src/lib/groq.ts:27-30 | a count is at most the list's length. It is 0 exactly when no entry is included in the text, and the full length exactly when every entry is |
| LibraryClassifier.DetectEmotion | src/lib/groq.ts:11-44 | the result is the first maximum of the four substring counts, and happy when its count is zero |
| LibraryClassifier.CountAppend | src/lib/groq.ts:27-30 | each list entry is counted on its own: counting a concatenated list adds the two counts |
| LibraryClassifier.CountSingle | src/lib/groq.ts:27-30 | a list in which the text includes only one entry, listed once, counts 1 |
| LibraryClassifier.CountGrows | src/lib/groq.ts:27-30 | text added on either side never lowers a count |
| LibraryClassifier.ScoreOf | src/lib/groq.ts:12-38 | each score is the count of its list in the lower-cased text |
| LibraryClassifier.NothingFoundIsHappy | src/lib/groq.ts:40-41 | a text that includes no keyword of any list is happy |
| LibraryClassifier.IncrivelScoresTwice | src/lib/groq.ts:15-21 | "incrível" is both a positive and a surprise keyword, so it scores for both |
| LibraryClassifier.IncrivelAloneIsHappy | src/lib/groq.ts:15-43 | a text whose only keyword is "incrível" ties happy with surprised at 1, and the tie goes to happy |
| LibraryClassifier.NoInsideWordIsNegative | src/lib/groq.ts:18-28 | any text containing "no", even inside a word, scores for sad |
| LibraryClassifier.ScoresGrow | src/lib/groq.ts:27-30 | appending text never lowers any of the four scores |
| LibraryClassifier.LibraryNomeSad | src/lib/groq.ts:11-43 | "nome" (a name) is sad for the library |
| LibraryClassifier.ClassifiersDisagree | src/lib/groq.ts:27-28 | on "nome" the library says sad and the chat route says happy |
| ChatRoute.ReplyText | src/app/api/chat/route.ts:107 | the reply text is never empty: the completion when it is truthy, otherwise the fixed apology |
| ChatRoute.Resolve | src/app/api/chat/route.ts:114 | the shown emotion is the user's or the reply's. A sad or surprised user emotion wins, and the reply's is overridden only then |
| ChatRoute.Post | src/app/api/chat/route.ts:68-124 | a completion is requested iff the body parsed and the message is truthy, with the body's persona, language and message. 400 iff a parsed body has a falsy message. 500 with the apology and sad iff the body did not parse, the completion threw, or a truthy message is not a string. Otherwise 200 with the reply text and the resolved emotion |
| ChatRoute.RepliesCarryEmotion | src/app/api/chat/route.ts:116-121 | every reply but the 400 has a non-empty response and an emotion |
| ChatRoute.UserEmotionWins | src/app/api/chat/route.ts:110-114 | a sad or surprised user message decides the emotion, whatever the model answers |
| ChatRoute.ReplyEmotionOtherwise | src/app/api/chat/route.ts:110-114 | otherwise the reply text's classification decides the emotion |
| ChatRoute.EmptyCompletionIsHappy | src/app/api/chat/route.ts:107-116 | an empty completion after a keyword-free message gives 200, the apology, and happy |
| ChatRoute.NonStringMessageFails | src/app/api/chat/route.ts:91-122 | a truthy non-string message still costs a completion, then gives the 500 reply |
| ChatRoute.DefaultsAreTextAndPortuguese | src/app/api/chat/route.ts:88-101 | with no persona and no language, the model is asked as the text persona to answer in Portuguese |
| GroqClient.LibrarySystemPrompt | src/lib/groq.ts:85-99 | each persona gets the same prompt as in the chat route, and exactly the strings other than the three personas get the generic prompt |
| GroqClient.ChatWithGroq | src/lib/groq.ts:47-82 | the response is never empty. A thrown completion gives the apology and sad. Otherwise the response is the completion, or the apology when that is empty, and the emotion is the library's classification of the response |
| GroqClient.SameTextAsRoute | src/lib/groq.ts:71-80 | the library and the chat route give the same response text for the same completion, and the same emotion when it threw |
| GroqClient.MessageIgnored | src/lib/groq.ts:47-74 | the user's message plays no part in the library's result |
| Voice.LocaleFor | src/lib/voice.ts:3-7 | exactly the three codes have a locale: pt-BR, en-US and fr-FR |
| Voice.DeviceLocale | src/lib/voice.ts:33 | the recogniser's locale is the mapped one, or pt-BR for an unmapped code |
| Voice.ClientLanguagesMapped | src/lib/voice.ts:3-7 | every interface language has a locale, so the fallback never applies to the client's own calls |
| Voice.SanitizeVolume | src/lib/voice.ts:75 | the utterance's volume is in [0, 1]: the requested volume when it is a finite number in that range, otherwise 0.9 |
| Voice.BaseSubtag | src/lib/voice.ts:79 | the base subtag is a prefix of the locale, contains no `-`, and is followed by `-` when shorter than the locale |
| Voice.BaseOfLocales | src/lib/voice.ts:79 | the base subtags of the three locales are the language codes |
| Voice.ChooseVoice | src/lib/voice.ts:77-82 | a chosen voice is one the device offers, and its language starts with the base subtag |
| Voice.ChooseVoiceFirst | src/lib/voice.ts:77-82 | the chosen voice is the first match, and none is chosen exactly when no voice matches |
| Voice.Interaction | src/lib/voice.ts:9-92 | a turn raises both flags first and lowers both last, and touches them nowhere else. When it does not answer, it ends with the error response and neither sets an emotion nor speaks. When it answers, the recogniser, the request, the emotion and the response come in that order. With the speaking-text setter, the next call sets the speaking text to the response, and no other call sets it. Any request posts the transcript as `voice`, and any utterance speaks the response at the sanitised volume, last |
| Voice.EmotionSetOnce | src/lib/voice.ts:58-60 | the emotion is set at most once, by the call right after the request, to the answer's emotion |
| Voice.ClientTurnSpeaks | src/lib/voice.ts:69-84 | an answered turn in a client language speaks in its locale, with the first device voice of that language |
| Voice.UnmappedLanguageFailsLate | src/lib/voice.ts:77-87 | with an unmapped code and a device that has voices, the emotion is set, then the voice lookup throws, the error response is shown and nothing is spoken |
| InteractiveAvatar.Cancel | src/components/AvatarControls.tsx:184 | cancelling empties the synthesiser's queue when there is a synthesiser, and changes nothing else |
| InteractiveAvatar.TurnKeepsSettled | src/components/InteractiveAvatar.tsx:94-125 | a settled conversation that gains a user message and its answer is settled again |
| InteractiveAvatar.WelcomeSettled | src/components/InteractiveAvatar.tsx:453-471 | the lone welcome message is a settled conversation |
| InteractiveAvatar.Announce | src/components/InteractiveAvatar.tsx:161-201 | an announcement does nothing unless reader mode was on when the callback was rendered. Then it records the message. With a synthesiser and a finite volume, it speaks the message in the rendered language and volume, queued behind the pending speech with `wait` or when nothing is speaking (a paused synthesiser counts as not speaking). Without `wait` it cancels speech that is playing and speaks alone. At a volume the utterance rejects (NaN or infinite), it throws before touching the speech, which stays as it was |
| InteractiveAvatar.Sent | src/components/InteractiveAvatar.tsx:87-110 | before the reply arrives, the user message is appended, the box is cleared and text processing starts. One request is sent in the page's language, unless the reader-mode announcement throws first: then nothing is sent and the speech is untouched |
| InteractiveAvatar.Received | src/components/InteractiveAvatar.tsx:110-128 | text processing ends. A thrown request appends the error entry and leaves the emotion. A reply sets the emotion and the speaking text and appends its answer; if its reader-mode announcement throws inside the `try`, the error entry follows the answer |
| InteractiveAvatar.InputChanged | src/components/InteractiveAvatar.tsx:585 | typing replaces the input and nothing else |
| InteractiveAvatar.TextTurn | src/components/InteractiveAvatar.tsx:87-129 | a text turn clears the box and keeps every setting. Normally it adds exactly a user entry and its answer, sends one `text` request and ends processing. When the first announcement throws (reader mode, synthesiser, rejected volume), it adds only the user entry, sends nothing, leaves emotion and speech alone and keeps processing on |
| InteractiveAvatar.TextSubmit | src/components/InteractiveAvatar.tsx:87-91 | a blank input changes nothing; otherwise the trimmed input makes a text turn, which may be cut short as `TextTurn` states |
| InteractiveAvatar.NoEmotionCall | src/components/InteractiveAvatar.tsx:140-148 | without an emotion call, the voice callbacks leave the emotion |
| InteractiveAvatar.LastEmotionCall | src/components/InteractiveAvatar.tsx:140-148 | the emotion ends as the one the last emotion call set |
| InteractiveAvatar.CallsPost | src/components/InteractiveAvatar.tsx:140-148 | the voice callbacks only append requests, and each appended one is the posted request |
| InteractiveAvatar.LastSpeakingTextCall | src/lib/voice.ts:64-65 | the speaking text ends as the one the last speaking-text call set |
| InteractiveAvatar.OneSpeakCall | src/lib/voice.ts:84 | a single speak call queues its utterance behind the current speech, at its own volume |
| InteractiveAvatar.VoiceTurnSpeech | src/lib/voice.ts:60-85 | an answered turn sets the page's speaking text to the response and, with a synthesiser, queues the response; any other turn leaves both alone |
| InteractiveAvatar.VoiceTurn | src/components/InteractiveAvatar.tsx:138-153 | after a voice turn, processing is off and only the emotion, speaking text, queue and requests may differ. When the turn answered, the emotion and the speaking text are the answer's, and with a synthesiser the response is queued in the language's locale at the sanitised volume. Otherwise all three are unchanged. Earlier requests are kept, and only a heard transcript adds `voice` requests for it |
| InteractiveAvatar.VoiceStart | src/components/InteractiveAvatar.tsx:132-154 | during a voice turn, the button only cancels speech and lowers the flag; otherwise it runs a whole voice turn |
| InteractiveAvatar.ClearChat | src/components/InteractiveAvatar.tsx:443-462 | clearing shows happy and an empty history, and queues a welcome timer for the current language only when asked |
| InteractiveAvatar.OpenChat | src/components/InteractiveAvatar.tsx:463-477 | opening greets in the rendered language only when the rendered history was empty, and otherwise changes nothing |
| InteractiveAvatar.WelcomeTimerFired | src/components/InteractiveAvatar.tsx:453-460 | the oldest pending timer replaces the history with the welcome of the language it captured |
| InteractiveAvatar.LanguageEffect | src/components/InteractiveAvatar.tsx:214-224 | a lone avatar message in an open box becomes the welcome in the current language; any other history is kept |
| InteractiveAvatar.LanguageEffectIdempotent | src/components/InteractiveAvatar.tsx:214-224 | running the language effect a second time changes nothing |
| InteractiveAvatar.VolumeEffect | src/components/InteractiveAvatar.tsx:273-298 | when the volume is `!==` the applied one while text is being spoken, the volume becomes the applied one, and the synthesiser is paused and its queue emptied. At a finite volume the speaking text is queued again at that volume, in pt-BR, en-US or fr-FR by the page's language. Nothing resumes the pause, so that restart stays silent. At a rejected volume the restart throws and nothing is queued. Otherwise nothing changes |
| InteractiveAvatar.VolumeEffectSettles | src/components/InteractiveAvatar.tsx:278-279 | once a numeric volume is applied, the guard no longer holds |
| InteractiveAvatar.NaNVolumeSilences | src/components/InteractiveAvatar.tsx:278-293 | at a NaN volume the retarget leaves nothing speaking. NaN is still `!==` the applied volume, but the guard fails for want of speech |
| InteractiveAvatar.RetargetLeavesSilence | src/components/InteractiveAvatar.tsx:278-293 | after any retarget nothing is speaking: the restart waits behind the pause. The guard fails at once, and no utterance can end while paused |
| InteractiveAvatar.Settle | src/components/InteractiveAvatar.tsx:214-298 | the effects do nothing when none of their dependencies changed. The history either stays or is the lone greeting retranslated, and the applied volume either stays or becomes the volume. A paused synthesiser stays paused |
| AvatarControls.Clamp01 | src/components/AvatarControls.tsx:367-369 | the clamp keeps a volume in [0, 1]. Anything above 1 becomes 1 and anything below 0 becomes 0; only NaN passes through, as NaN |
| AvatarControls.ClampIdempotent | src/components/AvatarControls.tsx:368 | clamping twice is clamping once |
| AvatarControls.VolumeClicked | src/components/AvatarControls.tsx:364-370 | a click on the shown slider sets the clamped volume and nothing else, and keeps a unit volume in [0, 1] |
| AvatarControls.StopPressed | src/components/AvatarControls.tsx:184 | stop empties the queue when the voice buttons are shown and there is a synthesiser. It changes nothing else, and nothing at all when the button is hidden |
| AvatarControls.ToggleVolumeSlider | src/components/AvatarControls.tsx:183 | the volume button flips the slider and nothing else, and a hidden button changes nothing |
| AvatarControls.ToggleLanguageMenu | src/components/AvatarControls.tsx:186 | the menu button flips the language menu and nothing else |
| AvatarControls.ToggleEmotionMenu | src/components/AvatarControls.tsx:187 | the emotion button flips the emotion menu and nothing else |
| AvatarControls.LanguagePicked | src/components/AvatarControls.tsx:270 | a flag in the open menu sets the language and closes the menu, and otherwise changes nothing |
| AvatarControls.EmotionPicked | src/components/AvatarControls.tsx:460-464 | an emoji in the open menu sets the emotion and closes the menu, and otherwise changes nothing |
| AvatarControls.MicCleared | src/components/AvatarControls.tsx:535-536 | the mic button first closes the text box and clears the chat to happy with no welcome timer |
| AvatarControls.MicPressed | src/components/AvatarControls.tsx:534-561 | the mic button always leaves the box closed, the history empty and processing off. Idle, it runs a voice turn whose emotion is the answer's; during a turn it only cancels speech |
| AvatarControls.TextPressed | src/components/AvatarControls.tsx:596-602 | outside a voice turn, the text button opens the box, greeting only an empty history |
| AvatarControls.NewChatPressed | src/components/AvatarControls.tsx:192-196 | new chat opens the box and queues a welcome timer in the current language. The history is the greeting when it was already empty, and empty until the timer otherwise |
| AvatarControls.ReaderToggled | src/components/AvatarControls.tsx:731-740 | reader mode flips. The click itself announces only the switch off: switching on is silent in this handler. The switch off is spoken only at a finite volume. It cancels speech that is playing, and it queues behind a paused synthesiser. At a rejected volume the speech is untouched. The page's intro effect, which speaks after switching on, is left out |
| AvatarImage.ImagePath | src/components/AvatarImage.tsx:47-60 | each emotion has its own image, and any other value (`undefined` included) shows the happy one |
| AvatarImage.ImageEmotion | src/components/AvatarImage.tsx:47-60 | an image read back as an emotion is that emotion's image |
| AvatarImage.ImagesDistinct | src/components/AvatarImage.tsx:47-60 | every emotion's image reads back as that emotion |
| AvatarImage.Mount | src/components/AvatarImage.tsx:70-83 | a mounted picture shows its emotion's image, neither loaded nor failed |
| AvatarImage.Step | src/components/AvatarImage.tsx:85-107 | a new emotion resets the image and both flags. Loading and failing set the two flags oppositely, and retry reloads the emotion's image |
| AvatarImage.PictureInvariant | src/components/AvatarImage.tsx:85-107 | after any events, the picture shows the image of its emotion and is never both loaded and failed |
| AvatarImage.MountedPicture | src/components/AvatarImage.tsx:70-107 | that invariant holds from mounting on |
| Session.StepKeepsIdle | src/components/InteractiveAvatar.tsx:87-298 | every event keeps the page calm: no voice turn running, user messages that are text, volumes that are settings. Every event but a cut-short submit also keeps it idle: no text turn running and every user message answered. A cut-short submit leaves its message unanswered, sends nothing and keeps the text turn running |
| Session.AlwaysIdle | src/components/InteractiveAvatar.tsx:38-61 | every run of events from a freshly mounted page leaves it calm, and idle when no submit of the run was cut short |
| Session.CutShortStep | src/components/InteractiveAvatar.tsx:87-101 | a cut-short submit, effects included, adds the message and clears the box; nothing is sent and text processing stays on |
| Session.UserLastUnsettled | src/components/InteractiveAvatar.tsx:94 | a history that ends with a user message is not settled |
| Session.NaNReaderSubmitSticks | src/components/InteractiveAvatar.tsx:87-110 | a cut-short submit is reachable from a fresh page: reader mode on, the text box opened (which greets in Portuguese), a slider click that yields NaN, then a message. The box stays open and the page is left processing. The history is the greeting and the unanswered message, and nothing is sent |
| Session.TextButtonStep | src/components/AvatarControls.tsx:596-602 | in reader mode at an accepted volume, the text button on an empty, closed page opens the box. It shows the greeting and announces it behind any pending speech, and changes nothing else |
| Session.StepKeepsPause | src/components/InteractiveAvatar.tsx:282-283 | no event lifts the pause the volume effect sets: the page never calls `resume()` |
| Session.PausedForGood | src/components/InteractiveAvatar.tsx:282-283 | once paused, the synthesiser stays paused through any run of events, and nothing speaks again |
| Session.TextTurnThroughRoute | src/components/InteractiveAvatar.tsx:87-114 | a text turn answered by the chat route always shows a non-empty answer and an emotion, and a thrown completion shows the apology as sad. A turn whose first announcement throws never reaches the route |
| Session.NewChatThenTimer | src/components/AvatarControls.tsx:192-196 | after new chat on a page with a history, the timer brings back the single welcome message in the language of the click |
| Session.TimerKeepsOldLanguage | src/components/InteractiveAvatar.tsx:453-460 | a language picked before the welcome timer fires is undone: the greeting first switches to the new language, then the timer puts back the old one |

## Left out

- Unicode lower-casing: `toLowerCase` is modelled on ASCII letters only. Every keyword and every example here is already lower case.
- Asynchrony: timers, promises and device callbacks are events or inputs, so handlers never interleave.
- The 100 ms polling of the announcement wait is modelled as queueing behind the current speech.
- The 10 ms delay of the volume retarget is modelled as immediate.
- The synthesiser follows the Web Speech API: `cancel()` keeps a pause, `speak()` on a paused synthesiser only queues, and `speaking` is false for an utterance that has not begun. Engines that lift the pause on `cancel()` are not modelled; under them the volume retarget would be heard again.
- Numbers are modelled only as far as the volume logic needs: finite reals, NaN and the infinities. The sign of zero and rounding are not modelled.
- AvatarControls.Clamp01: a click position of NaN passes through the clamp as NaN, as `Math.min`/`Math.max` do. The model keeps such a volume, and the page's invariant allows it. An utterance rejects a NaN volume because its `volume` attribute is a WebIDL `float`. So at NaN the announcements and the volume retarget throw, and a reader-mode submit is cut short; the model states all three.
- Rendering, the DOM, the screen-reader live region, scrolling, focus and the chat's auto-scroll effect.
- The mount timer of `AvatarImage`: the picture is modelled from the moment it is mounted.
- Large font, high contrast, `localStorage`, the accessibility-menu toggle, closing menus on outside clicks and the beep played through `AudioContext` are not modelled. Most of them only change the look of the page.
- The large-font and high-contrast buttons are left out although, in reader mode, they announce their new setting (src/components/AvatarControls.tsx:704, 776, 779). That announcement has no `wait`, so it cuts off the current speech.
- The intro effect (src/components/InteractiveAvatar.tsx:227-253) is left out although it speaks. Reader mode starts off, so the effect first runs when reader mode is switched on. 800 ms later it cuts off the current speech and reads the introduction once.
- Recognition and synthesis are given as their outcomes. These are `speechToText`'s transcript or error, `getVoices`, and the reply of `fetch`. The JSON shapes a body can take are folded into "parsed with these three fields" or `Unparsable`.
- Prompts.LanguageLabel: inherited object keys such as `toString` are not labels in the model. In the source they give a function's text.
- ChatRoute.Post: the request's system message is kept as `Request.System()`, derived from the body's fields, rather than as a stored string.
- Voice.Interaction: an utterance of a missing response keeps the missing text. How the browser prints `undefined` is not modelled.
- InteractiveAvatar.VoiceStart: no control calls `handleVoiceStart` (the mic button has its own handler), but it is modelled all the same.
- The Groq client object, the model's configuration (src/lib/config.ts), next.config.ts and src/app/page.tsx are not part of this model.

=== FILE: avatar_controls.dfy ===
/** The event handlers of src/components/AvatarControls.tsx, acting on the
    page state through the callbacks the page hands to the controls. A
    button that is not rendered (the voice buttons without speech
    recognition, a picker whose menu is closed) cannot be pressed: its
    handler leaves the page as it is. */
module AvatarControls {
  import opened Js
  import opened Emotions
  import Voice
  import opened InteractiveAvatar

  // ---------------------------------------------------------------------
  // Volume clamp
  // ---------------------------------------------------------------------

  /** `a <= b` on numbers that are not NaN. */
  predicate AtMost(a: JsNumber, b: JsNumber)
    requires !a.NaN? && !b.NaN?
  {
    match a
    case NegInf => true
    case PosInf => b.PosInf?
    case Finite(x) => b.PosInf? || (b.Finite? && x <= b.r)
  }

  /** `Math.min(a, b)`: NaN when either is NaN. */
  function JsMin(a: JsNumber, b: JsNumber): JsNumber {
    if a.NaN? || b.NaN? then NaN else if AtMost(a, b) then a else b
  }

  /** `Math.max(a, b)`: NaN when either is NaN. */
  function JsMax(a: JsNumber, b: JsNumber): JsNumber {
    if a.NaN? || b.NaN? then NaN else if AtMost(a, b) then b else a
  }

  /** The volume is a number in [0, 1]. */
  predicate UnitVolume(v: JsNumber) {
    v.Finite? && 0.0 <= v.r <= 1.0
  }

  /** `Math.max(0, Math.min(1, v))`: the slider's clamp. A value in [0, 1]
      is kept, one above (or +Infinity) becomes 1, one below becomes 0;
      NaN passes through. */
  function Clamp01(v: JsNumber): (r: JsNumber)
    ensures r.NaN? <==> v.NaN?
    ensures !v.NaN? ==> UnitVolume(r)
    ensures UnitVolume(v) ==> r == v
    ensures v.PosInf? || (v.Finite? && v.r > 1.0) ==> r == Finite(1.0)
    ensures v.NegInf? || (v.Finite? && v.r < 0.0) ==> r == Finite(0.0)
  {
    JsMax(Finite(0.0), JsMin(Finite(1.0), v))
  }

  /** Clamping twice is clamping once. */
  lemma ClampIdempotent(v: JsNumber)
    ensures Clamp01(Clamp01(v)) == Clamp01(v)
  {
  }

  // ---------------------------------------------------------------------
  // Handlers
  // ---------------------------------------------------------------------

  /** A click on the volume bar, whose position gives `raw`: the clamped
      value becomes the volume. */
  function VolumeClicked(ui: Ui, device: Voice.Device, raw: JsNumber): (r: Ui)
    ensures device.recognition && ui.menus.volumeSlider ==>
      r == ui.(audio := ui.audio.(volume := Clamp01(raw)))
    ensures !(device.recognition && ui.menus.volumeSlider) ==> r == ui
    ensures !raw.NaN? && UnitVolume(ui.audio.volume) ==> UnitVolume(r.audio.volume)
  {
    if device.recognition && ui.menus.volumeSlider then ui.(audio := ui.audio.(volume := Clamp01(raw)))
    else ui
  }

  /** The stop button: cancel the synthesiser. */
  function StopPressed(ui: Ui, device: Voice.Device): (r: Ui)
    ensures device.recognition && device.synthesis ==> r.audio.queue == []
    ensures !(device.recognition && device.synthesis) ==> r == ui
    ensures r == ui.(audio := ui.audio.(queue := r.audio.queue))
  {
    if device.recognition then Cancel(ui, device) else ui
  }

  /** The volume button: show or hide the slider. */
  function ToggleVolumeSlider(ui: Ui, device: Voice.Device): (r: Ui)
    ensures device.recognition ==> r.menus.volumeSlider == !ui.menus.volumeSlider
    ensures !device.recognition ==> r == ui
    ensures r == ui.(menus := ui.menus.(volumeSlider := r.menus.volumeSlider))
  {
    if device.recognition then ui.(menus := ui.menus.(volumeSlider := !ui.menus.volumeSlider)) else ui
  }

  /** The options button: open or close the language menu. */
  function ToggleLanguageMenu(ui: Ui): (r: Ui)
    ensures r.menus.language == !ui.menus.language
    ensures r == ui.(menus := ui.menus.(language := r.menus.language))
  {
    ui.(menus := ui.menus.(language := !ui.menus.language))
  }

  /** The emotion button: open or close the emotion menu. */
  function ToggleEmotionMenu(ui: Ui): (r: Ui)
    ensures r.menus.emotion == !ui.menus.emotion
    ensures r == ui.(menus := ui.menus.(emotion := r.menus.emotion))
  {
    ui.(menus := ui.menus.(emotion := !ui.menus.emotion))
  }

  /** A flag of the open language menu: that language, and the menu closes. */
  function LanguagePicked(ui: Ui, l: Voice.Lang): (r: Ui)
    ensures ui.menus.language ==> r.language == l && !r.menus.language
    ensures !ui.menus.language ==> r == ui
    ensures r == ui.(language := r.language, menus := ui.menus.(language := r.menus.language))
  {
    if ui.menus.language then ui.(language := l, menus := ui.menus.(language := false)) else ui
  }

  /** An emoji of the open emotion menu: that emotion, and the menu closes. */
  function EmotionPicked(ui: Ui, e: Emotion): (r: Ui)
    ensures ui.menus.emotion ==> r.emotion == Some(e) && !r.menus.emotion
    ensures !ui.menus.emotion ==> r == ui
    ensures r == ui.(emotion := r.emotion, menus := ui.menus.(emotion := r.menus.emotion))
  {
    if ui.menus.emotion then ui.(emotion := Some(e), menus := ui.menus.(emotion := false)) else ui
  }

  /** The page after the mic button's first two calls: text box closed and
      the chat cleared without a welcome message. */
  function MicCleared(ui: Ui): (r: Ui)
    ensures !r.chat.open && r.chat.history == [] && r.emotion == Some(Happy)
    ensures r.chat.pendingWelcome == ui.chat.pendingWelcome
    ensures r == ui.(emotion := Some(Happy), chat := ui.chat.(history := [], open := false))
  {
    ClearChat(ui.(chat := ui.chat.(open := false)), false)
  }

  /** The mic button. Whatever it does next, it first closes the text box
      and clears the chat without a welcome message. Idle, it runs a voice
      turn; during a turn, it only stops the synthesiser. */
  function MicPressed(ui: Ui, device: Voice.Device, capture: Voice.Capture, answer: Voice.Answer): (r: Ui)
    ensures !device.recognition ==> r == ui
    ensures device.recognition ==>
      && !r.chat.open && r.chat.history == [] && r.chat.pendingWelcome == ui.chat.pendingWelcome
      && !r.processingVoice
    ensures device.recognition && ui.processingVoice ==>
      && r.emotion == Some(Happy) && r.requests == ui.requests
      && r.audio == ui.audio.(queue := if device.synthesis then [] else ui.audio.queue)
    ensures device.recognition && !ui.processingVoice ==>
      && r == VoiceTurn(MicCleared(ui).(processingVoice := true), device, capture, answer, FromControls)
      && r.emotion == (if Voice.Answers(device, capture, answer) then answer.emotion else Some(Happy))
  {
    if !device.recognition then ui
    else
      var cleared := MicCleared(ui);
      if !ui.processingVoice then
        VoiceTurn(cleared.(processingVoice := true), device, capture, answer, FromControls)
      else
        Cancel(cleared, device).(processingVoice := false)
  }

  /** The text button: unless a voice turn is running, open the text box and
      then the chat, which greets only when the rendered history is empty. */
  function TextPressed(ui: Ui, device: Voice.Device): (r: Ui)
    ensures ui.processingVoice ==> r == ui
    ensures !ui.processingVoice ==>
      && r.chat.open
      && r.chat.history == (if |ui.chat.history| == 0 then [Welcome(ui.language)] else ui.chat.history)
      && r.emotion == ui.emotion && r.requests == ui.requests
  {
    if ui.processingVoice then ui
    else OpenChat(ui.(chat := ui.chat.(open := true)), ui, device)
  }

  /** The new-chat button: clear the chat (with the welcome timer), open the
      text box, then open the chat. The open-chat callback was rendered
      before the clear, so it greets only when the history was already
      empty; otherwise the history stays empty until the timer fires. */
  function NewChatPressed(ui: Ui, device: Voice.Device): (r: Ui)
    ensures r.chat.open && r.emotion == Some(Happy)
    ensures r.chat.pendingWelcome == ui.chat.pendingWelcome + [ui.language]
    ensures r.chat.history == if |ui.chat.history| == 0 then [Welcome(ui.language)] else []
    ensures r.requests == ui.requests && r.processingVoice == ui.processingVoice
  {
    var cleared := ClearChat(ui, true);
    OpenChat(cleared.(chat := cleared.chat.(open := true)), ui, device)
  }

  const ReaderOnText: string := "Leitor de ecrã ativado"
  const ReaderOffText: string := "Leitor de ecrã desligado"

  /** The reader-mode button: flip the mode, then announce it through the
      callback rendered with the old mode. Switching on is therefore
      silent; only switching off is announced, and it is not spoken when
      the volume is one an utterance rejects. */
  function ReaderToggled(ui: Ui, device: Voice.Device): (r: Ui)
    ensures r.reader.on == !ui.reader.on
    ensures !ui.reader.on ==> r == ui.(reader := ui.reader.(on := true))
    ensures ui.reader.on ==> r.reader.announcement == ReaderOffText
    ensures ui.reader.on && device.synthesis && !VolumeRejected(ui.audio.volume) ==>
      r.audio.queue == (if Speaking(ui.audio) then [] else ui.audio.queue) + [AnnouncementSpeech(ui, ReaderOffText)]
    ensures ui.reader.on && device.synthesis && !VolumeRejected(ui.audio.volume) && !ui.audio.paused ==>
      r.audio.queue == [AnnouncementSpeech(ui, ReaderOffText)]
    ensures AnnounceThrows(ui, device) ==> r.audio == ui.audio
  {
    var newMode := !ui.reader.on;
    Announce(ui.(reader := ui.reader.(on := newMode)), ui, device,
             if newMode then ReaderOnText else ReaderOffText, false)
  }
}

=== FILE: avatar_image.dfy ===
/** The avatar picture of src/components/AvatarImage.tsx: which image shows
    an emotion, and the loaded/error flags of the image element. */
module AvatarImage {
  import opened Js
  import opened Emotions

  const HappyImage: string := "/maria_avatar.png"
  const SadImage: string := "/maria_avatar_sad.png"
  const SurprisedImage: string := "/maria_avatar_surprised.png"
  const ClosedEyesImage: string := "/maria_avatar_closed_eyes.png"

  /** `getImagePathForEmotion`: a `switch` on the emotion string; any other
      value, `undefined` included, shows the happy image. */
  function ImagePath(emotion: Option<string>): (r: string)
    ensures r in {HappyImage, SadImage, SurprisedImage, ClosedEyesImage}
    ensures r == SadImage <==> emotion == Some("sad")
    ensures r == SurprisedImage <==> emotion == Some("surprised")
    ensures r == ClosedEyesImage <==> emotion == Some("closed_eyes")
    ensures r == HappyImage <==> emotion !in {Some("sad"), Some("surprised"), Some("closed_eyes")}
  {
    match emotion
    case Some("happy") => HappyImage
    case Some("sad") => SadImage
    case Some("surprised") => SurprisedImage
    case Some("closed_eyes") => ClosedEyesImage
    case _ => HappyImage
  }

  /** The image of an emotion of the model. */
  function EmotionImage(e: Emotion): string {
    ImagePath(Some(Name(e)))
  }

  /** Which emotion an image shows. */
  function ImageEmotion(path: string): (r: Option<Emotion>)
    ensures r.Some? ==> EmotionImage(r.value) == path
  {
    if path == HappyImage then Some(Happy)
    else if path == SadImage then Some(Sad)
    else if path == SurprisedImage then Some(Surprised)
    else if path == ClosedEyesImage then Some(ClosedEyes)
    else None
  }

  /** Each emotion has its own image: the image tells the emotion back. */
  lemma ImagesDistinct(e: Emotion)
    ensures ImageEmotion(EmotionImage(e)) == Some(e)
  {
  }

  /** The state of one mounted picture. */
  datatype Picture = Picture(emotion: Option<string>, path: string, loaded: bool, error: bool)

  /** Mounting: the path of the first emotion, neither loaded nor failed. */
  function Mount(emotion: Option<string>): (p: Picture)
    ensures p.path == ImagePath(emotion) && !p.loaded && !p.error
  {
    Picture(emotion, ImagePath(emotion), false, false)
  }

  /** What can happen to a mounted picture. */
  datatype PictureEvent = EmotionProp(emotion: Option<string>) | ImageLoaded | ImageFailed | Retry

  /** The emotion effect (run only when the emotion prop changed) and the
      three handlers. */
  function Step(p: Picture, ev: PictureEvent): (q: Picture)
    ensures ev.EmotionProp? && ev.emotion != p.emotion ==>
      q == Picture(ev.emotion, ImagePath(ev.emotion), false, false)
    ensures ev.EmotionProp? && ev.emotion == p.emotion ==> q == p
    ensures ev.ImageLoaded? ==> q == p.(loaded := true, error := false)
    ensures ev.ImageFailed? ==> q == p.(loaded := false, error := true)
    ensures ev.Retry? ==> q == p.(path := ImagePath(p.emotion), loaded := false, error := false)
    ensures ev != EmotionProp(p.emotion) ==> !(q.loaded && q.error)
  {
    match ev
    case EmotionProp(e) =>
      if e == p.emotion then p else Picture(e, ImagePath(e), false, false)
    case ImageLoaded => p.(loaded := true, error := false)
    case ImageFailed => p.(loaded := false, error := true)
    case Retry => p.(path := ImagePath(p.emotion), loaded := false, error := false)
  }

  /** A sequence of events, applied in order. */
  function Run(p: Picture, evs: seq<PictureEvent>): Picture
    decreases |evs|
  {
    if |evs| == 0 then p else Run(Step(p, evs[0]), evs[1..])
  }

  /** From mounting on, the picture shows the image of its current emotion
      and is never both loaded and failed. */
  lemma {:induction false} PictureInvariant(p: Picture, evs: seq<PictureEvent>)
    requires p.path == ImagePath(p.emotion) && !(p.loaded && p.error)
    ensures var q := Run(p, evs); q.path == ImagePath(q.emotion) && !(q.loaded && q.error)
    decreases |evs|
  {
    if |evs| > 0 {
      PictureInvariant(Step(p, evs[0]), evs[1..]);
    }
  }

  /** The picture a mounted image reaches after any events. */
  lemma MountedPicture(emotion: Option<string>, evs: seq<PictureEvent>)
    ensures var q := Run(Mount(emotion), evs); q.path == ImagePath(q.emotion) && !(q.loaded && q.error)
  {
    PictureInvariant(Mount(emotion), evs);
  }
}

=== FILE: chat_route.dfy ===
/** The `POST` handler of src/app/api/chat/route.ts, with the request body
    parsing and the completion call given as outcomes. */
module ChatRoute {
  import opened Js
  import opened Emotions
  import opened Prompts
  import ServerClassifier

  /** The request body: `Unparsable` when `request.json()` throws (or yields
      a value that cannot be destructured), otherwise the three fields read. */
  datatype Body = Unparsable | Body(message: Value, avatarType: Value, language: Value)

  /** How the completion call ended: it threw, or it returned and
      `choices[0]?.message?.content` is `content` (None when any link of the
      optional chain is absent or the content is null). */
  datatype Completion = CompletionThrew | Completed(content: Option<string>)

  /** The completion requested: its system message is built from the
      persona and language fields, and the user's message is forwarded as
      it came. */
  datatype Request = Request(avatarType: Value, language: Value, user: Value) {
    /** The system message. */
    function System(): string {
      RouteSystemPrompt(avatarType, language)
    }
  }

  /** The JSON reply and its HTTP status; fields the reply lacks are None. */
  datatype Reply = Reply(status: nat, error: Option<string>, response: Option<string>, emotion: Option<Emotion>)

  /** One call of the handler: the completion it requested, if any, and its reply. */
  datatype Turn = Turn(request: Option<Request>, reply: Reply)

  const MissingMessage: string := "Message is required"
  const FailedResponse: string := "Failed to get response"

  /** The reply of the `catch` block. */
  const Failure: Reply := Reply(500, Some(FailedResponse), Some(ErrorReplyText), Some(Sad))

  /** `content || "Desculpe, não consegui processar sua mensagem."`. */
  function ReplyText(content: Option<string>): (r: string)
    ensures r != ""
    ensures TruthyText(content) ==> r == content.value
    ensures !TruthyText(content) ==> r == EmptyReplyText
  {
    if TruthyText(content) then content.value else EmptyReplyText
  }

  /** The emotion shown: the user's when it is sad or surprised, otherwise
      the reply's. */
  function Resolve(user: Emotion, reply: Emotion): (r: Emotion)
    ensures r == user || r == reply
    ensures user == Sad || user == Surprised ==> r == user
    ensures r != reply ==> user == Sad || user == Surprised
  {
    if user == Sad || user == Surprised then user else reply
  }

  /** The handler. A message that is truthy but not a string is forwarded to
      the model and then makes `detectEmotion` throw on `toLowerCase`. */
  function Post(body: Body, completion: Completion): (t: Turn)
    ensures t.request.None? <==> body.Unparsable? || !Truthy(body.message)
    ensures t.request.Some? ==>
      t.request.value == Request(body.avatarType, body.language, body.message)
    ensures t.reply.status == 400 <==> body.Body? && !Truthy(body.message)
    ensures t.reply.status == 400 ==> t.reply == Reply(400, Some(MissingMessage), None, None)
    ensures t.reply.status == 500 <==>
      body.Unparsable? || (Truthy(body.message) && (completion.CompletionThrew? || !body.message.Str?))
    ensures t.reply.status == 500 ==> t.reply == Failure
    ensures t.reply.status == 200 ==>
      && body.Body? && body.message.Str? && completion.Completed?
      && t.reply.error.None?
      && t.reply.response == Some(ReplyText(completion.content))
      && t.reply.emotion == Some(Resolve(ServerClassifier.DetectEmotion(body.message.s),
                                         ServerClassifier.DetectEmotion(ReplyText(completion.content))))
    ensures t.reply.status in {200, 400, 500}
  {
    match body
    case Unparsable => Turn(None, Failure)
    case Body(message, avatarType, language) =>
      if !Truthy(message) then
        Turn(None, Reply(400, Some(MissingMessage), None, None))
      else
        var request := Request(avatarType, language, message);
        match completion
        case CompletionThrew => Turn(Some(request), Failure)
        case Completed(content) =>
          var response := ReplyText(content);
          if !message.Str? then Turn(Some(request), Failure)
          else
            var emotion := Resolve(ServerClassifier.DetectEmotion(message.s),
                                   ServerClassifier.DetectEmotion(response));
            Turn(Some(request), Reply(200, None, Some(response), Some(emotion)))
  }

  // ---------------------------------------------------------------------
  // Properties
  // ---------------------------------------------------------------------

  /** Every reply but the 400 carries a non-empty response and an emotion,
      which the client relies on to update the avatar. */
  lemma RepliesCarryEmotion(body: Body, completion: Completion)
    ensures var r := Post(body, completion).reply;
      r.status != 400 ==> r.response.Some? && r.response.value != "" && r.emotion.Some?
  {
  }

  /** A sad or surprised user message decides the shown emotion whatever
      the model answers. */
  lemma UserEmotionWins(message: string, avatarType: Value, language: Value, content: Option<string>)
    requires message != ""
    requires ServerClassifier.DetectEmotion(message) in {Sad, Surprised}
    ensures Post(Body(Str(message), avatarType, language), Completed(content)).reply.emotion
         == Some(ServerClassifier.DetectEmotion(message))
  {
    var u := ServerClassifier.DetectEmotion(message);
    var v := ServerClassifier.DetectEmotion(ReplyText(content));
    assert Post(Body(Str(message), avatarType, language), Completed(content)).reply.emotion == Some(Resolve(u, v));
  }

  /** Otherwise the reply text decides: the shown emotion is the one the
      response is classified as. */
  lemma ReplyEmotionOtherwise(message: string, avatarType: Value, language: Value, content: Option<string>)
    requires message != ""
    ensures ServerClassifier.DetectEmotion(message) in {Happy, ClosedEyes} ==>
      Post(Body(Str(message), avatarType, language), Completed(content)).reply.emotion
      == Some(ServerClassifier.DetectEmotion(ReplyText(content)))
  {
    var u := ServerClassifier.DetectEmotion(message);
    var v := ServerClassifier.DetectEmotion(ReplyText(content));
    assert Post(Body(Str(message), avatarType, language), Completed(content)).reply.emotion == Some(Resolve(u, v));
  }

  /** An empty completion is answered with the fixed apology, which has no
      keyword: a user message without one shows happy. */
  lemma EmptyCompletionIsHappy(message: string, avatarType: Value, language: Value, content: Option<string>)
    requires message != "" && !TruthyText(content)
    requires ServerClassifier.DetectEmotion(message) == Happy
    ensures Post(Body(Str(message), avatarType, language), Completed(content)).reply
         == Reply(200, None, Some(EmptyReplyText), Some(Happy))
  {
    ServerClassifier.EmptyReplyIsHappy();
  }

  /** A non-string message still costs a completion, then fails with 500. */
  lemma NonStringMessageFails(truthy: bool, key: string, avatarType: Value, language: Value, completion: Completion)
    requires truthy
    ensures var t := Post(Body(NonString(truthy, key), avatarType, language), completion);
      t.request.Some? && t.reply == Failure
  {
  }

  /** With no persona and no language the model is asked as the text
      persona to answer in Portuguese. */
  lemma DefaultsAreTextAndPortuguese(message: string, completion: Completion)
    requires message != ""
    ensures var t := Post(Body(Str(message), Missing, Missing), completion);
      && t.request.Some? && t.request.value.user == Str(message)
      && t.request.value.System() == TextPrompt + " Always respond in " + "Portuguese" + "."
  {
  }
}

=== FILE: emotions.dfy ===
/** The four avatar emotions and the rule both classifiers use to turn four
    keyword scores into one emotion. */
module Emotions {
  import opened Js

  datatype Emotion = Happy | Sad | Surprised | ClosedEyes

  /** Position in the score object `{happy, sad, surprised, closed_eyes}`,
      which is the order `Object.keys(...).find(...)` visits. */
  function Rank(e: Emotion): nat {
    match e
    case Happy => 0
    case Sad => 1
    case Surprised => 2
    case ClosedEyes => 3
  }

  /** The wire name of an emotion. */
  function Name(e: Emotion): string {
    match e
    case Happy => "happy"
    case Sad => "sad"
    case Surprised => "surprised"
    case ClosedEyes => "closed_eyes"
  }

  /** Reads a wire name back; any other string is not an emotion. */
  function FromName(s: string): (r: Option<Emotion>)
    ensures r.Some? ==> Name(r.value) == s
  {
    if s == "happy" then Some(Happy)
    else if s == "sad" then Some(Sad)
    else if s == "surprised" then Some(Surprised)
    else if s == "closed_eyes" then Some(ClosedEyes)
    else None
  }

  /** Every emotion's name reads back as that emotion, so names are distinct. */
  lemma NameRoundTrip(e: Emotion)
    ensures FromName(Name(e)) == Some(e)
  {
  }

  /** One score per emotion. */
  datatype Scores = Scores(happy: nat, sad: nat, surprised: nat, closedEyes: nat) {
    function Of(e: Emotion): nat {
      match e
      case Happy => happy
      case Sad => sad
      case Surprised => surprised
      case ClosedEyes => closedEyes
    }
  }

  /** `e` has the highest score and every emotion before it in the score
      order has a strictly lower one. */
  predicate IsFirstMax(sc: Scores, e: Emotion) {
    && (forall o: Emotion :: sc.Of(o) <= sc.Of(e))
    && (forall o: Emotion :: Rank(o) < Rank(e) ==> sc.Of(o) < sc.Of(e))
  }

  /** `Math.max` of the four scores, then `happy` when it is 0 and otherwise
      the first key in score order whose score equals it. */
  function Pick(sc: Scores): (r: Emotion)
    ensures IsFirstMax(sc, r)
  {
    var m := Max(Max(sc.happy, sc.sad), Max(sc.surprised, sc.closedEyes));
    if m == 0 then Happy
    else if sc.happy == m then Happy
    else if sc.sad == m then Sad
    else if sc.surprised == m then Surprised
    else ClosedEyes
  }

  function Max(a: nat, b: nat): nat {
    if a < b then b else a
  }

  /** The first-maximum is unique: `Pick` is the only emotion with that
      property, so ties always go to the earlier emotion. */
  lemma FirstMaxUnique(sc: Scores, e: Emotion)
    requires IsFirstMax(sc, e)
    ensures e == Pick(sc)
  {
    var p := Pick(sc);
    assert sc.Of(p) <= sc.Of(e) && sc.Of(e) <= sc.Of(p);
    if Rank(e) < Rank(p) {
      assert false;
    } else if Rank(p) < Rank(e) {
      assert false;
    }
  }

}

=== FILE: groq_client.dfy ===
/** `chatWithGroq` of src/lib/groq.ts: one completion with the persona
    prompt, the empty-reply fallback, and the library classifier on the
    answer. The completion call is given as its outcome. */
module GroqClient {
  import opened Js
  import opened Emotions
  import opened Prompts
  import ChatRoute
  import LibraryClassifier

  /** What `chatWithGroq` resolves to. */
  datatype ChatResult = ChatResult(response: string, emotion: Emotion)

  /** The system prompt the library sends: the persona prompt alone, with no
      language instruction. */
  function LibrarySystemPrompt(avatarType: string): (r: string)
    ensures avatarType == "voice" ==> r == VoicePrompt
    ensures avatarType == "text" ==> r == TextPrompt
    ensures avatarType == "accessibility" ==> r == AccessibilityPrompt
    ensures r == GenericPrompt <==> avatarType !in {"voice", "text", "accessibility"}
  {
    SystemPrompt(Str(avatarType))
  }

  /** `chatWithGroq(message, avatarType)` once the completion has ended. The
      message only travels to the model; it plays no part in the result. */
  function ChatWithGroq(message: string, avatarType: string, completion: ChatRoute.Completion): (r: ChatResult)
    ensures r.response != ""
    ensures completion.CompletionThrew? ==> r == ChatResult(ErrorReplyText, Sad)
    ensures completion.Completed? && TruthyText(completion.content) ==>
      r.response == completion.content.value
    ensures completion.Completed? && !TruthyText(completion.content) ==>
      r.response == EmptyReplyText
    ensures completion.Completed? ==> r.emotion == LibraryClassifier.DetectEmotion(r.response)
  {
    match completion
    case CompletionThrew => ChatResult(ErrorReplyText, Sad)
    case Completed(content) =>
      var response := ChatRoute.ReplyText(content);
      ChatResult(response, LibraryClassifier.DetectEmotion(response))
  }

  /** The library and the chat route answer a completion with the same
      text, and a failure with the same apology and sad; they differ only in
      how the emotion of a reply is found. */
  lemma SameTextAsRoute(message: string, avatarType: string, language: Value, completion: ChatRoute.Completion)
    requires message != ""
    ensures var t := ChatRoute.Post(ChatRoute.Body(Str(message), Str(avatarType), language), completion);
      && t.reply.response == Some(ChatWithGroq(message, avatarType, completion).response)
      && (completion.CompletionThrew? ==> t.reply.emotion == Some(ChatWithGroq(message, avatarType, completion).emotion))
  {
  }

  /** The user's message never influences the library's result. */
  lemma MessageIgnored(m1: string, m2: string, avatarType: string, completion: ChatRoute.Completion)
    ensures ChatWithGroq(m1, avatarType, completion) == ChatWithGroq(m2, avatarType, completion)
  {
  }
}

=== FILE: interactive_avatar.dfy ===
/** The page state of src/components/InteractiveAvatar.tsx and its
    handlers: text submit, voice start, clear chat, open chat, the
    screen-reader announcement, and the two effects that react to state
    changes (welcome message on a language change, volume retarget).
    Every handler runs to completion in one step; network replies and
    speech-device outcomes are inputs. */
module InteractiveAvatar {
  import opened Js
  import opened Text
  import opened Emotions
  import Voice

  // ---------------------------------------------------------------------
  // State
  // ---------------------------------------------------------------------

  datatype Role = User | Avatar

  /** A chat entry. An avatar entry built from a reply without a `response`
      field holds `undefined`. */
  datatype Entry = Entry(role: Role, message: Option<string>)

  /** An utterance waiting in, or being spoken by, the synthesiser. */
  datatype Speech = Speech(text: Option<string>, lang: string, volume: JsNumber)

  /** The body of a `POST /api/chat` the page sends. */
  datatype ChatRequest = ChatRequest(message: string, avatarType: string, language: string)

  /** The text chat: the history, the input box, whether the box is shown,
      and the languages of the welcome timers clear-chat started, oldest
      first. */
  datatype Chat = Chat(history: seq<Entry>, input: string, open: bool, pendingWelcome: seq<Voice.Lang>)

  /** The synthesiser side: the volume setting, the volume the last
      retarget used (`previousVolumeRef`), the text being spoken, the
      synthesiser's queue, and whether the synthesiser is paused. In the
      Web Speech API `cancel()` leaves the paused state alone and `speak()`
      on a paused synthesiser only queues; nothing in the page resumes. */
  datatype Audio = Audio(volume: JsNumber, appliedVolume: JsNumber, speakingText: Option<string>,
                         queue: seq<Speech>, paused: bool)

  /** `speechSynthesis.speaking`: an utterance has begun and not ended. The
      page pauses only right before a cancel, so while paused nothing queued
      has begun; otherwise the head of a non-empty queue is being spoken. */
  predicate Speaking(a: Audio) {
    |a.queue| > 0 && !a.paused
  }

  /** The screen-reader mode and the last announcement. */
  datatype Reader = Reader(on: bool, announcement: string)

  /** The menus of the controls that are open. */
  datatype Menus = Menus(language: bool, emotion: bool, volumeSlider: bool)

  /** The page state; `requests` records every chat request sent. */
  datatype Ui = Ui(emotion: Option<Emotion>, language: Voice.Lang,
                   processingVoice: bool, processingText: bool,
                   chat: Chat, audio: Audio, reader: Reader, menus: Menus,
                   requests: seq<ChatRequest>)

  /** The state of a freshly mounted page. */
  const Initial: Ui := Ui(Some(Happy), Voice.Pt, false, false,
                          Chat([], "", false, []), Audio(Finite(0.9), Finite(0.9), Some(""), [], false),
                          Reader(false, ""), Menus(false, false, false), [])

  /** `welcomeMessages[language]`. */
  function WelcomeText(l: Voice.Lang): string {
    match l
    case Pt => "Olá! Sou a Maria. " + "É um prazer " + "conhecer-te! " + "Como posso " + "ajudar-te hoje?"
    case En => "Hi! I'm Maria. " + "It's a pleasure " + "to meet you! " + "How can I help " + "you today?"
    case Fr => "Bonjour ! " + "Je suis Maria. " + "Ravie de faire " + "ta connaissance ! " + "Comment puis-je " + "t'aider ?"
  }

  function Welcome(l: Voice.Lang): Entry {
    Entry(Avatar, Some(WelcomeText(l)))
  }

  /** The avatar entry added when the text request throws. */
  const TextErrorText: string := "✗ Erro ao processar a mensagem."

  /** The locale of announcements (European Portuguese). */
  function AnnounceLocale(l: Voice.Lang): string {
    match l
    case Pt => "pt-PT"
    case En => "en-US"
    case Fr => "fr-FR"
  }

  /** The locale of a retargeted utterance: pt-BR, en-US or fr-FR by the
      page's language. */
  function RetargetLocale(l: Voice.Lang): string {
    match l
    case Pt => "pt-BR"
    case En => "en-US"
    case Fr => "fr-FR"
  }

  /** Whether setting an utterance's `volume` to `v` throws. The attribute
      is a WebIDL `float`, which rejects NaN and the infinities with a
      `TypeError`. */
  predicate VolumeRejected(v: JsNumber) {
    !IsFinite(v)
  }

  /** Whether an announcement from a page rendered as `from` throws: it
      builds an utterance only in reader mode with a synthesiser, and sets
      its volume to the page's volume unchecked, before anything is
      cancelled or spoken. */
  predicate AnnounceThrows(from: Ui, device: Voice.Device) {
    from.reader.on && device.synthesis && VolumeRejected(from.audio.volume)
  }

  /** The speech of an announcement made from a page rendered as `from`. */
  function AnnouncementSpeech(from: Ui, message: string): Speech {
    Speech(Some(message), AnnounceLocale(from.language), from.audio.volume)
  }

  /** `speechSynthesis.cancel()` when the synthesiser exists. */
  function Cancel(ui: Ui, device: Voice.Device): (r: Ui)
    ensures r.audio.queue == if device.synthesis then [] else ui.audio.queue
    ensures r == ui.(audio := ui.audio.(queue := r.audio.queue))
  {
    if device.synthesis then ui.(audio := ui.audio.(queue := [])) else ui
  }

  // ---------------------------------------------------------------------
  // Chat history
  // ---------------------------------------------------------------------

  /** From `start` on, entries alternate user, avatar, user, avatar, ... */
  predicate Alternates(h: seq<Entry>, start: nat) {
    forall i :: start <= i < |h| ==> (h[i].role == User <==> (i - start) % 2 == 0)
  }

  /** A conversation: an optional opening avatar message, then turns of one
      user message answered by one avatar message (the last turn possibly
      still waiting for its answer); every user message is non-empty text. */
  predicate WellFormed(h: seq<Entry>) {
    && (Alternates(h, 0) || (|h| > 0 && h[0].role == Avatar && Alternates(h, 1)))
    && UserTexts(h)
  }

  /** Every user message is non-empty text. */
  predicate UserTexts(h: seq<Entry>) {
    forall i :: 0 <= i < |h| && h[i].role == User ==> h[i].message.Some? && h[i].message.value != ""
  }

  /** Where the turns start: 1 after an opening avatar message, else 0. */
  function Offset(h: seq<Entry>): nat
    requires WellFormed(h)
  {
    if Alternates(h, 0) then 0 else 1
  }

  /** Between turns: every user message has its answer. */
  predicate Settled(h: seq<Entry>) {
    WellFormed(h) && (|h| - Offset(h)) % 2 == 0
  }

  /** A settled conversation gains a user message and its answer and is
      settled again. */
  lemma {:induction false} TurnKeepsSettled(h: seq<Entry>, msg: string, answer: Option<string>)
    requires Settled(h) && msg != ""
    ensures Settled(h + [Entry(User, Some(msg)), Entry(Avatar, answer)])
  {
    var h' := h + [Entry(User, Some(msg)), Entry(Avatar, answer)];
    var k := Offset(h);
    assert forall i :: 0 <= i < |h| ==> h'[i] == h[i];
    assert Alternates(h', k);
    if k == 1 {
      assert !Alternates(h', 0) by {
        assert h'[0] == h[0];
      }
    }
    assert Offset(h') == k;
  }

  /** The lone welcome message is a settled conversation. */
  lemma WelcomeSettled(l: Voice.Lang)
    ensures Settled([Welcome(l)])
  {
    assert !Alternates([Welcome(l)], 0) by {
      assert [Welcome(l)][0].role == Avatar;
    }
  }

  // ---------------------------------------------------------------------
  // Handlers
  // ---------------------------------------------------------------------

  /** `handleScreenReaderAnnouncement(message, wait)`, a callback created at
      render time: `from` is the state it was rendered with, `ui` the state
      it updates. It does nothing unless the reader mode was on. With
      `wait` the utterance is queued behind the current speech; otherwise
      the current speech, if the synthesiser is speaking, is cancelled
      first. The message is recorded before
      the utterance is built, so it stays recorded when the volume is
      rejected; then nothing is cancelled or spoken, and the caller sees
      the throw (`AnnounceThrows`). */
  function Announce(ui: Ui, from: Ui, device: Voice.Device, message: string, wait: bool): (r: Ui)
    ensures !from.reader.on ==> r == ui
    ensures from.reader.on ==> r.reader.announcement == message
    ensures from.reader.on && device.synthesis && !VolumeRejected(from.audio.volume) ==>
      r.audio.queue == (if wait || !Speaking(ui.audio) then ui.audio.queue + [AnnouncementSpeech(from, message)]
                        else [AnnouncementSpeech(from, message)])
    ensures from.reader.on && device.synthesis && !VolumeRejected(from.audio.volume) && !wait && !ui.audio.paused ==>
      r.audio.queue == [AnnouncementSpeech(from, message)]
    ensures !device.synthesis || AnnounceThrows(from, device) ==> r.audio.queue == ui.audio.queue
    ensures r == ui.(reader := ui.reader.(announcement := r.reader.announcement),
                     audio := ui.audio.(queue := r.audio.queue))
  {
    if !from.reader.on then ui
    else
      var u := ui.(reader := ui.reader.(announcement := message));
      if !device.synthesis || VolumeRejected(from.audio.volume) then u
      else if wait || !Speaking(u.audio) then u.(audio := u.audio.(queue := u.audio.queue + [AnnouncementSpeech(from, message)]))
      else u.(audio := u.audio.(queue := [AnnouncementSpeech(from, message)]))
  }

  /** What happens before the request is awaited: the user message is added,
      the box is cleared, text processing starts, and the request leaves.
      The reader-mode announcement comes before the `try`: when it throws,
      the handler stops there, with no request sent and text processing
      left on. */
  function Sent(ui: Ui, device: Voice.Device, msg: string): (r: Ui)
    ensures r.chat == ui.chat.(history := ui.chat.history + [Entry(User, Some(msg))], input := "")
    ensures r.processingText
    ensures !AnnounceThrows(ui, device) ==>
      r.requests == ui.requests + [ChatRequest(msg, "text", Voice.Code(ui.language))]
    ensures AnnounceThrows(ui, device) ==> r.requests == ui.requests && r.audio == ui.audio
    ensures r == ui.(processingText := true, chat := r.chat, reader := r.reader, audio := r.audio,
                     requests := r.requests)
    ensures r.reader.on == ui.reader.on && r.audio == ui.audio.(queue := r.audio.queue)
  {
    var s := ui.(chat := ui.chat.(history := ui.chat.history + [Entry(User, Some(msg))], input := ""),
                 processingText := true);
    var a := Announce(s, ui, device, "Tu disseste: " + msg, false);
    if AnnounceThrows(ui, device) then a
    else a.(requests := a.requests + [ChatRequest(msg, "text", Voice.Code(ui.language))])
  }

  /** The avatar entry a text turn ends with. */
  function AnswerEntry(reply: Voice.Answer): Entry {
    if reply.Answered? then Entry(Avatar, reply.response) else Entry(Avatar, Some(TextErrorText))
  }

  /** The entries a text turn's reply adds. An answer whose announcement
      throws is inside the `try`, so the error entry follows it. */
  function ReplyEntries(from: Ui, device: Voice.Device, reply: Voice.Answer): seq<Entry> {
    if reply.Answered? && AnnounceThrows(from, device) then [AnswerEntry(reply), Entry(Avatar, Some(TextErrorText))]
    else [AnswerEntry(reply)]
  }

  /** What happens once the reply is in (or the request threw). The status
      of the reply is never looked at. */
  function Received(sent: Ui, from: Ui, device: Voice.Device, reply: Voice.Answer): (r: Ui)
    ensures !r.processingText
    ensures !(reply.Answered? && AnnounceThrows(from, device)) ==>
      r.chat == sent.chat.(history := sent.chat.history + [AnswerEntry(reply)])
    ensures reply.Answered? && AnnounceThrows(from, device) ==>
      r.chat == sent.chat.(history := sent.chat.history + [AnswerEntry(reply), Entry(Avatar, Some(TextErrorText))])
    ensures reply.AnswerFailed? ==> r.emotion == sent.emotion
    ensures reply.Answered? ==> r.emotion == reply.emotion && r.audio.speakingText == reply.response
    ensures r == sent.(emotion := r.emotion, processingText := false, chat := r.chat,
                       reader := r.reader, audio := r.audio)
    ensures r.reader.on == sent.reader.on
    ensures r.audio.volume == sent.audio.volume && r.audio.appliedVolume == sent.audio.appliedVolume
  {
    match reply
    case AnswerFailed =>
      sent.(chat := sent.chat.(history := sent.chat.history + [AnswerEntry(reply)]), processingText := false)
    case Answered(emotion, response) =>
      var s := sent.(emotion := emotion, chat := sent.chat.(history := sent.chat.history + [AnswerEntry(reply)]),
                     audio := sent.audio.(speakingText := response));
      var a := Announce(s, from, device, "Maria respondeu: " + Stringify(response), true);
      if AnnounceThrows(from, device) then
        a.(chat := a.chat.(history := a.chat.history + [Entry(Avatar, Some(TextErrorText))]), processingText := false)
      else a.(processingText := false)
  }

  /** The settings of the page are the same: language, voice flag, text
      box, welcome timers, volume, reader mode and menus. */
  predicate SameSettings(a: Ui, b: Ui) {
    && a.language == b.language && a.processingVoice == b.processingVoice
    && a.chat.open == b.chat.open && a.chat.pendingWelcome == b.chat.pendingWelcome
    && a.audio.volume == b.audio.volume && a.audio.appliedVolume == b.audio.appliedVolume
    && a.reader.on == b.reader.on && a.menus == b.menus
  }

  /** The input box's `onChange`. */
  function InputChanged(ui: Ui, text: string): (r: Ui)
    ensures r.chat.input == text
    ensures r == ui.(chat := ui.chat.(input := r.chat.input))
  {
    ui.(chat := ui.chat.(input := text))
  }

  /** A text turn for a non-blank message: one user entry and one avatar
      entry are added, one request is sent, and text processing ends. When
      the first announcement throws, the turn stops after the user entry:
      no request, no answer, and text processing stays on. */
  function TextTurn(ui: Ui, device: Voice.Device, msg: string, reply: Voice.Answer): (r: Ui)
    ensures !AnnounceThrows(ui, device) ==>
      && r.chat.history == ui.chat.history + [Entry(User, Some(msg)), AnswerEntry(reply)]
      && r.requests == ui.requests + [ChatRequest(msg, "text", Voice.Code(ui.language))]
      && !r.processingText
      && r.emotion == (if reply.Answered? then reply.emotion else ui.emotion)
    ensures AnnounceThrows(ui, device) ==>
      && r.chat.history == ui.chat.history + [Entry(User, Some(msg))]
      && r.requests == ui.requests && r.processingText
      && r.emotion == ui.emotion && r.audio == ui.audio
    ensures r.chat.input == ""
    ensures SameSettings(ui, r)
  {
    if AnnounceThrows(ui, device) then Sent(ui, device, msg)
    else
      assert ui.chat.history + [Entry(User, Some(msg))] + [AnswerEntry(reply)]
          == ui.chat.history + [Entry(User, Some(msg)), AnswerEntry(reply)];
      Received(Sent(ui, device, msg), ui, device, reply)
  }

  /** `handleTextSubmit`: a blank input (nothing but whitespace) changes
      nothing; otherwise the trimmed input makes a text turn. */
  function TextSubmit(ui: Ui, device: Voice.Device, reply: Voice.Answer): (r: Ui)
    ensures Trim(ui.chat.input) == "" ==> r == ui
    ensures Trim(ui.chat.input) != "" ==> r == TextTurn(ui, device, Trim(ui.chat.input), reply)
  {
    var msg := Trim(ui.chat.input);
    if msg == "" then ui else TextTurn(ui, device, msg, reply)
  }

  /** Which handler gave the callbacks to the voice interaction. The page's
      `handleVoiceStart` passes the processing setter as the listening
      setter too; the mic button passes a no-op. Both pass a no-op as the
      response setter and the page's speaking-text setter. */
  datatype Wiring = FromPage | FromControls

  /** The part of the page the voice callbacks can reach. */
  datatype Reach = Reach(emotion: Option<Emotion>, processingVoice: bool, speakingText: Option<string>,
                         queue: seq<Speech>, requests: seq<ChatRequest>)

  function Reached(ui: Ui): Reach {
    Reach(ui.emotion, ui.processingVoice, ui.audio.speakingText, ui.audio.queue, ui.requests)
  }

  /** One callback of the voice interaction landing on the page. */
  function ApplyCall(v: Reach, call: Voice.Call, wiring: Wiring): Reach {
    match call
    case SetListening(b) => if wiring == FromPage then v.(processingVoice := b) else v
    case SetProcessing(b) => v.(processingVoice := b)
    case StartRecognition(_) => v
    case PostChat(m, t, l) => v.(requests := v.requests + [ChatRequest(m, t, l)])
    case SetEmotion(e) => v.(emotion := e)
    case SetVoiceResponse(_) => v
    case SetSpeakingText(t) => v.(speakingText := t)
    case Speak(u) => v.(queue := v.queue + [Spoken(u)])
  }

  /** What the synthesiser queues for an utterance. */
  function Spoken(u: Voice.Utterance): Speech {
    Speech(u.text, u.lang, Finite(u.volume))
  }

  function ApplyCalls(v: Reach, calls: seq<Voice.Call>, wiring: Wiring): Reach
    decreases |calls|
  {
    if |calls| == 0 then v else ApplyCalls(ApplyCall(v, calls[0], wiring), calls[1..], wiring)
  }

  /** Without an emotion call the emotion stays. */
  lemma {:induction false} NoEmotionCall(v: Reach, calls: seq<Voice.Call>, wiring: Wiring)
    requires forall i :: 0 <= i < |calls| ==> !calls[i].SetEmotion?
    ensures ApplyCalls(v, calls, wiring).emotion == v.emotion
    decreases |calls|
  {
    if |calls| > 0 {
      assert !calls[0].SetEmotion?;
      NoEmotionCall(ApplyCall(v, calls[0], wiring), calls[1..], wiring);
    }
  }

  /** The emotion is the one of the last emotion call. */
  lemma {:induction false} LastEmotionCall(v: Reach, calls: seq<Voice.Call>, wiring: Wiring, k: nat)
    requires k < |calls| && calls[k].SetEmotion?
    requires forall i :: k < i < |calls| ==> !calls[i].SetEmotion?
    ensures ApplyCalls(v, calls, wiring).emotion == calls[k].emotion
    decreases |calls|
  {
    var next := ApplyCall(v, calls[0], wiring);
    if k == 0 {
      NoEmotionCall(next, calls[1..], wiring);
    } else {
      assert calls[1..][k - 1] == calls[k];
      LastEmotionCall(next, calls[1..], wiring, k - 1);
    }
  }

  /** Requests from the voice callbacks are added after the earlier ones,
      and each is the one the calls post. */
  lemma {:induction false} CallsPost(v: Reach, calls: seq<Voice.Call>, wiring: Wiring, req: ChatRequest)
    requires forall i :: 0 <= i < |calls| && calls[i].PostChat? ==>
      calls[i] == Voice.PostChat(req.message, req.avatarType, req.language)
    ensures var r := ApplyCalls(v, calls, wiring);
      && |v.requests| <= |r.requests| && r.requests[..|v.requests|] == v.requests
      && forall i :: |v.requests| <= i < |r.requests| ==> r.requests[i] == req
    decreases |calls|
  {
    if |calls| > 0 {
      var next := ApplyCall(v, calls[0], wiring);
      CallsPost(next, calls[1..], wiring, req);
      var r := ApplyCalls(v, calls, wiring);
      assert next.requests[..|v.requests|] == v.requests;
      assert r.requests[..|v.requests|] == r.requests[..|next.requests|][..|v.requests|];
    }
  }

  /** Without a post the requests stay. */
  lemma {:induction false} NoPostCall(v: Reach, calls: seq<Voice.Call>, wiring: Wiring)
    requires forall i :: 0 <= i < |calls| ==> !calls[i].PostChat?
    ensures ApplyCalls(v, calls, wiring).requests == v.requests
    decreases |calls|
  {
    if |calls| > 0 {
      assert !calls[0].PostChat?;
      NoPostCall(ApplyCall(v, calls[0], wiring), calls[1..], wiring);
    }
  }

  /** Without a speaking-text call the speaking text stays. */
  lemma {:induction false} NoSpeakingTextCall(v: Reach, calls: seq<Voice.Call>, wiring: Wiring)
    requires forall i :: 0 <= i < |calls| ==> !calls[i].SetSpeakingText?
    ensures ApplyCalls(v, calls, wiring).speakingText == v.speakingText
    decreases |calls|
  {
    if |calls| > 0 {
      assert !calls[0].SetSpeakingText?;
      NoSpeakingTextCall(ApplyCall(v, calls[0], wiring), calls[1..], wiring);
    }
  }

  /** The speaking text is the one of the last speaking-text call. */
  lemma {:induction false} LastSpeakingTextCall(v: Reach, calls: seq<Voice.Call>, wiring: Wiring, k: nat)
    requires k < |calls| && calls[k].SetSpeakingText?
    requires forall i :: k < i < |calls| ==> !calls[i].SetSpeakingText?
    ensures ApplyCalls(v, calls, wiring).speakingText == calls[k].text
    decreases |calls|
  {
    var next := ApplyCall(v, calls[0], wiring);
    if k == 0 {
      NoSpeakingTextCall(next, calls[1..], wiring);
    } else {
      assert calls[1..][k - 1] == calls[k];
      LastSpeakingTextCall(next, calls[1..], wiring, k - 1);
    }
  }

  /** Without a speak call the synthesiser's queue stays. */
  lemma {:induction false} NoSpeakCall(v: Reach, calls: seq<Voice.Call>, wiring: Wiring)
    requires forall i :: 0 <= i < |calls| ==> !calls[i].Speak?
    ensures ApplyCalls(v, calls, wiring).queue == v.queue
    decreases |calls|
  {
    if |calls| > 0 {
      assert !calls[0].Speak?;
      NoSpeakCall(ApplyCall(v, calls[0], wiring), calls[1..], wiring);
    }
  }

  /** A single speak call queues its utterance behind the current speech. */
  lemma {:induction false} OneSpeakCall(v: Reach, calls: seq<Voice.Call>, wiring: Wiring, k: nat)
    requires k < |calls| && calls[k].Speak?
    requires forall i :: 0 <= i < |calls| && i != k ==> !calls[i].Speak?
    ensures ApplyCalls(v, calls, wiring).queue == v.queue + [Spoken(calls[k].utterance)]
    decreases |calls|
  {
    var next := ApplyCall(v, calls[0], wiring);
    if k == 0 {
      assert forall i :: 0 <= i < |calls[1..]| ==> calls[1..][i] == calls[i + 1];
      NoSpeakCall(next, calls[1..], wiring);
    } else {
      assert !calls[0].Speak?;
      assert forall i :: 0 <= i < |calls[1..]| ==> calls[1..][i] == calls[i + 1];
      OneSpeakCall(next, calls[1..], wiring, k - 1);
    }
  }

  /** The request a voice turn posts: the transcript, as `voice`, in the
      page's language. */
  function VoiceRequest(ui: Ui, transcript: string): ChatRequest {
    ChatRequest(transcript, "voice", Voice.Code(ui.language))
  }

  /** The callbacks of one voice turn at the page's language and volume. */
  function TurnCalls(ui: Ui, device: Voice.Device, capture: Voice.Capture, answer: Voice.Answer): seq<Voice.Call> {
    Voice.Interaction(device, Voice.Code(ui.language), ui.audio.volume, capture, answer, true)
  }

  /** What the callbacks of a voice turn do to the part they reach. */
  lemma VoiceTurnFacts(ui: Ui, device: Voice.Device, capture: Voice.Capture, answer: Voice.Answer,
                       wiring: Wiring)
    ensures var r := ApplyCalls(Reached(ui), TurnCalls(ui, device, capture, answer), wiring);
      && (Voice.Answers(device, capture, answer) ==> r.emotion == answer.emotion)
      && (!Voice.Answers(device, capture, answer) ==> r.emotion == ui.emotion)
      && |ui.requests| <= |r.requests| && r.requests[..|ui.requests|] == ui.requests
      && (capture.Heard? ==> forall i :: |ui.requests| <= i < |r.requests| ==>
            r.requests[i] == VoiceRequest(ui, capture.transcript))
      && (!capture.Heard? ==> r.requests == ui.requests)
  {
    var calls := TurnCalls(ui, device, capture, answer);
    Voice.EmotionSetOnce(device, Voice.Code(ui.language), ui.audio.volume, capture, answer, true);
    if Voice.Answers(device, capture, answer) {
      assert calls[2..6][2] == calls[4];
      LastEmotionCall(Reached(ui), calls, wiring, 4);
    } else {
      NoEmotionCall(Reached(ui), calls, wiring);
    }
    if capture.Heard? {
      CallsPost(Reached(ui), calls, wiring, VoiceRequest(ui, capture.transcript));
    } else {
      NoPostCall(Reached(ui), calls, wiring);
    }
  }

  /** The speech of an answered voice turn: the response, in the locale of
      the page's language, at the sanitised volume. */
  function VoiceSpeech(ui: Ui, answer: Voice.Answer): Speech
    requires answer.Answered?
  {
    Speech(answer.response, Voice.DeviceLocale(Voice.Code(ui.language)),
           Finite(Voice.SanitizeVolume(ui.audio.volume)))
  }

  /** What the callbacks of a voice turn do to the speaking text and the
      synthesiser's queue. */
  lemma VoiceTurnSpeech(ui: Ui, device: Voice.Device, capture: Voice.Capture, answer: Voice.Answer,
                        wiring: Wiring)
    ensures var r := ApplyCalls(Reached(ui), TurnCalls(ui, device, capture, answer), wiring);
      && (Voice.Answers(device, capture, answer) ==> r.speakingText == answer.response)
      && (!Voice.Answers(device, capture, answer) ==> r.speakingText == ui.audio.speakingText)
      && (Voice.Answers(device, capture, answer) && device.synthesis ==>
            r.queue == ui.audio.queue + [VoiceSpeech(ui, answer)])
      && (!(Voice.Answers(device, capture, answer) && device.synthesis) ==> r.queue == ui.audio.queue)
  {
    var calls := TurnCalls(ui, device, capture, answer);
    var answers := Voice.Answers(device, capture, answer);
    if answers {
      LastSpeakingTextCall(Reached(ui), calls, wiring, 6);
    } else {
      NoSpeakingTextCall(Reached(ui), calls, wiring);
    }
    if answers && device.synthesis {
      Voice.ClientLanguagesMapped(ui.language);
      Voice.ClientTurnSpeaks(device, ui.language, ui.audio.volume, capture.transcript, answer, true);
      OneSpeakCall(Reached(ui), calls, wiring, |calls| - 3);
    } else {
      NoSpeakCall(Reached(ui), calls, wiring);
    }
  }

  /** Only what the voice callbacks can reach differs: the emotion, the
      voice flag, the speaking text, the synthesiser queue and the requests. */
  predicate VoiceOnlyChanged(a: Ui, b: Ui) {
    && a.language == b.language && a.processingText == b.processingText
    && a.chat == b.chat && a.reader == b.reader && a.menus == b.menus
    && a.audio.volume == b.audio.volume && a.audio.appliedVolume == b.audio.appliedVolume
  }

  /** A whole voice turn, its callbacks applied to the page, and the voice
      flag lowered by `finally`. */
  function VoiceTurn(ui: Ui, device: Voice.Device, capture: Voice.Capture, answer: Voice.Answer,
                     wiring: Wiring): (r: Ui)
    ensures !r.processingVoice && VoiceOnlyChanged(ui, r)
    ensures Voice.Answers(device, capture, answer) ==> r.emotion == answer.emotion
    ensures !Voice.Answers(device, capture, answer) ==> r.emotion == ui.emotion
    ensures |ui.requests| <= |r.requests| && r.requests[..|ui.requests|] == ui.requests
    ensures capture.Heard? ==> forall i :: |ui.requests| <= i < |r.requests| ==>
      r.requests[i] == VoiceRequest(ui, capture.transcript)
    ensures !capture.Heard? ==> r.requests == ui.requests
    ensures Voice.Answers(device, capture, answer) ==> r.audio.speakingText == answer.response
    ensures !Voice.Answers(device, capture, answer) ==> r.audio.speakingText == ui.audio.speakingText
    ensures Voice.Answers(device, capture, answer) && device.synthesis ==>
      r.audio.queue == ui.audio.queue + [VoiceSpeech(ui, answer)]
    ensures !(Voice.Answers(device, capture, answer) && device.synthesis) ==> r.audio.queue == ui.audio.queue
  {
    var v := ApplyCalls(Reached(ui), TurnCalls(ui, device, capture, answer), wiring);
    VoiceTurnFacts(ui, device, capture, answer, wiring);
    VoiceTurnSpeech(ui, device, capture, answer, wiring);
    ui.(emotion := v.emotion, processingVoice := false,
        audio := ui.audio.(speakingText := v.speakingText, queue := v.queue), requests := v.requests)
  }

  /** `handleVoiceStart`. While a voice turn is running it only stops the
      synthesiser and lowers the flag: no capture, no request. Otherwise it
      runs a whole voice turn. */
  function VoiceStart(ui: Ui, device: Voice.Device, capture: Voice.Capture, answer: Voice.Answer): (r: Ui)
    ensures !r.processingVoice && VoiceOnlyChanged(ui, r)
    ensures ui.processingVoice ==>
      r == ui.(processingVoice := false, audio := ui.audio.(queue := if device.synthesis then [] else ui.audio.queue))
    ensures !ui.processingVoice ==> r == VoiceTurn(ui.(processingVoice := true), device, capture, answer, FromPage)
  {
    if ui.processingVoice then Cancel(ui, device).(processingVoice := false)
    else VoiceTurn(ui.(processingVoice := true), device, capture, answer, FromPage)
  }

  /** `onClearChat(showWelcome)`: happy face, empty history, and a welcome
      timer for the current language only when asked for. */
  function ClearChat(ui: Ui, showWelcome: bool): (r: Ui)
    ensures r.emotion == Some(Happy) && r.chat.history == []
    ensures r.chat.pendingWelcome == ui.chat.pendingWelcome + (if showWelcome then [ui.language] else [])
    ensures r == ui.(emotion := r.emotion, chat := ui.chat.(history := [], pendingWelcome := r.chat.pendingWelcome))
  {
    ui.(emotion := Some(Happy),
        chat := ui.chat.(history := [],
                         pendingWelcome := ui.chat.pendingWelcome + if showWelcome then [ui.language] else []))
  }

  /** `onOpenChat`, created at render time from `from`: the welcome message
      (announced in reader mode) only when the rendered history was empty. */
  function OpenChat(ui: Ui, from: Ui, device: Voice.Device): (r: Ui)
    ensures |from.chat.history| != 0 ==> r == ui
    ensures |from.chat.history| == 0 ==> r.chat == ui.chat.(history := [Welcome(from.language)])
    ensures r == ui.(chat := r.chat, reader := ui.reader.(announcement := r.reader.announcement),
                     audio := ui.audio.(queue := r.audio.queue))
  {
    if |from.chat.history| == 0 then
      Announce(ui.(chat := ui.chat.(history := [Welcome(from.language)])), from, device,
               WelcomeText(from.language), false)
    else ui
  }

  /** The 150 ms timer of clear-chat firing: the history becomes the welcome
      message of the language it was started with. */
  function WelcomeTimerFired(ui: Ui): (r: Ui)
    ensures |ui.chat.pendingWelcome| > 0 ==>
      r == ui.(chat := ui.chat.(history := [Welcome(ui.chat.pendingWelcome[0])],
                                pendingWelcome := ui.chat.pendingWelcome[1..]))
    ensures |ui.chat.pendingWelcome| == 0 ==> r == ui
  {
    if |ui.chat.pendingWelcome| > 0 then
      ui.(chat := ui.chat.(history := [Welcome(ui.chat.pendingWelcome[0])],
                           pendingWelcome := ui.chat.pendingWelcome[1..]))
    else ui
  }

  /** The synthesiser finished the utterance it was speaking, the head of
      its queue. A paused synthesiser finishes nothing. */
  function UtteranceEnded(ui: Ui): (r: Ui)
    ensures Speaking(ui.audio) ==> r.audio.queue == ui.audio.queue[1..]
    ensures !Speaking(ui.audio) ==> r == ui
    ensures r == ui.(audio := ui.audio.(queue := r.audio.queue))
  {
    if Speaking(ui.audio) then ui.(audio := ui.audio.(queue := ui.audio.queue[1..])) else ui
  }

  // ---------------------------------------------------------------------
  // Effects
  // ---------------------------------------------------------------------

  /** The history is a lone avatar message in an open text box. */
  predicate LoneGreeting(ui: Ui) {
    ui.chat.open && |ui.chat.history| == 1 && ui.chat.history[0].role == Avatar
  }

  /** The language effect: a lone avatar message in an open text box is
      replaced by the welcome message of the current language. */
  function LanguageEffect(ui: Ui): (r: Ui)
    ensures LoneGreeting(ui) ==> r == ui.(chat := ui.chat.(history := [Welcome(ui.language)]))
    ensures !LoneGreeting(ui) ==> r == ui
  {
    if LoneGreeting(ui) then ui.(chat := ui.chat.(history := [Welcome(ui.language)])) else ui
  }

  /** The retarget guard: the volume differs (`!==`) from the one last
      applied, the synthesiser is speaking and there is speaking text. */
  predicate Retargets(ui: Ui, device: Voice.Device) {
    && device.synthesis && StrictNotEqual(ui.audio.volume, ui.audio.appliedVolume)
    && Speaking(ui.audio) && TruthyText(ui.audio.speakingText)
  }

  /** The volume effect: when the guard holds, record the volume as applied,
      pause and cancel the speech, and queue the speaking text again at that
      volume. Nothing resumes the synthesiser, so the restart stays queued
      and silent. The restart runs in a timer; a volume the utterance
      rejects makes it throw there, and nothing is queued. */
  function VolumeEffect(ui: Ui, device: Voice.Device): (r: Ui)
    ensures Retargets(ui, device) ==> r.audio.appliedVolume == ui.audio.volume && r.audio.paused
    ensures Retargets(ui, device) && !VolumeRejected(ui.audio.volume) ==>
      r.audio.queue == [Speech(ui.audio.speakingText, RetargetLocale(ui.language), ui.audio.volume)]
    ensures Retargets(ui, device) && VolumeRejected(ui.audio.volume) ==> r.audio.queue == []
    ensures !Retargets(ui, device) ==> r == ui
    ensures r == ui.(audio := ui.audio.(appliedVolume := r.audio.appliedVolume, queue := r.audio.queue,
                                        paused := r.audio.paused))
  {
    if !Retargets(ui, device) then ui
    else
      var stopped := ui.(audio := ui.audio.(appliedVolume := ui.audio.volume, queue := [], paused := true));
      if VolumeRejected(ui.audio.volume) then stopped
      else stopped.(audio := stopped.audio.(queue := [Speech(ui.audio.speakingText, RetargetLocale(ui.language),
                                                            ui.audio.volume)]))
  }

  /** Once the greeting is in the current language, running the language
      effect again changes nothing. */
  lemma LanguageEffectIdempotent(ui: Ui)
    ensures LanguageEffect(LanguageEffect(ui)) == LanguageEffect(ui)
  {
  }

  /** After a retarget nothing is speaking: the restart waits behind the
      pause, so the guard fails until something resumes, which nothing
      does. */
  lemma RetargetLeavesSilence(ui: Ui, device: Voice.Device)
    requires Retargets(ui, device)
    ensures !Speaking(VolumeEffect(ui, device).audio) && !Retargets(VolumeEffect(ui, device), device)
    ensures UtteranceEnded(VolumeEffect(ui, device)) == VolumeEffect(ui, device)
  {
  }

  /** A volume that is a number, once applied, no longer passes the guard:
      the next run of the effect leaves the speech alone. */
  lemma VolumeEffectSettles(ui: Ui, device: Voice.Device)
    requires !ui.audio.volume.NaN?
    ensures !Retargets(VolumeEffect(ui, device), device)
  {
  }

  /** A NaN volume is never `===` to the applied one, so the guard would
      pass again; but the restart throws, so the effect leaves nothing
      speaking and the guard fails for want of speech. */
  lemma NaNVolumeSilences(ui: Ui, device: Voice.Device)
    requires ui.audio.volume.NaN? && Retargets(ui, device)
    ensures var r := VolumeEffect(ui, device);
      && r.audio.queue == [] && StrictNotEqual(r.audio.volume, r.audio.appliedVolume)
      && !Retargets(r, device)
  {
  }

  /** The effects that run after a handler, in declaration order, each only
      when one of its dependencies changed (`Object.is`) since `before`. */
  function Settle(before: Ui, after: Ui, device: Voice.Device): (r: Ui)
    ensures (&& after.language == before.language && after.chat.open == before.chat.open
             && SameValue(after.audio.volume, before.audio.volume)
             && after.audio.speakingText == before.audio.speakingText)
            ==> r == after
    ensures r.chat.history == after.chat.history
         || (LoneGreeting(after) && r.chat.history == [Welcome(after.language)])
    ensures r.audio.appliedVolume == after.audio.appliedVolume || r.audio.appliedVolume == after.audio.volume
    ensures r == after.(chat := after.chat.(history := r.chat.history),
                        audio := after.audio.(appliedVolume := r.audio.appliedVolume, queue := r.audio.queue,
                                              paused := r.audio.paused))
    ensures after.audio.paused ==> r.audio.paused
  {
    var a := if after.language != before.language || after.chat.open != before.chat.open
             then LanguageEffect(after) else after;
    if !SameValue(a.audio.volume, before.audio.volume) || a.audio.speakingText != before.audio.speakingText
       || a.language != before.language
    then VolumeEffect(a, device) else a
  }
}

=== FILE: js.dfy ===
/** The few JavaScript value shapes the chat core inspects: optional fields,
    JSON request fields whose only relevant trait is their type and truthiness,
    and IEEE numbers reduced to the cases the volume logic distinguishes. */
module Js {

  /** A field that may be `undefined`. */
  datatype Option<+T> = None | Some(value: T) {
    function GetOr(default: T): T {
      match this
      case Some(v) => v
      case None => default
    }
  }

  /** A field of a parsed JSON request body. `NonString` stands for null,
      booleans, numbers, arrays and objects, and records whether the value is
      truthy and the string `String(v)` it turns into when used as a property
      key (`["en"]` gives "en"); none of them can be lower-cased or used as a
      `switch` case. */
  datatype Value = Missing | Str(s: string) | NonString(truthy: bool, key: string)

  /** JavaScript truthiness: `undefined` and `""` are falsy, every other
      string is truthy. */
  predicate Truthy(v: Value) {
    match v
    case Missing => false
    case Str(s) => s != ""
    case NonString(t, _) => t
  }

  /** The property key a value is converted to when it indexes an object. */
  function PropertyKey(v: Value): string {
    match v
    case Missing => "undefined"
    case Str(s) => s
    case NonString(_, k) => k
  }

  /** Truthiness of an optional string (`undefined` and `""` are falsy). */
  predicate TruthyText(t: Option<string>) {
    t.Some? && t.value != ""
  }

  /** `String(x)` of an optional string: `undefined` prints as "undefined". */
  function Stringify(t: Option<string>): (r: string)
    ensures t.Some? ==> r == t.value
    ensures t.None? ==> r == "undefined"
  {
    t.GetOr("undefined")
  }

  /** An IEEE-754 double as far as the volume logic can tell: a finite value
      (the sign of zero is not modelled), NaN, or one of the infinities. */
  datatype JsNumber = Finite(r: real) | NaN | PosInf | NegInf

  /** `Number.isFinite`. */
  predicate IsFinite(x: JsNumber) {
    x.Finite?
  }

  /** `a !== b` on numbers: NaN differs from everything, itself included. */
  predicate StrictNotEqual(a: JsNumber, b: JsNumber) {
    a.NaN? || b.NaN? || a != b
  }

  /** `Object.is(a, b)`, which React uses to decide whether an effect
      dependency changed: NaN is the same value as NaN. */
  predicate SameValue(a: JsNumber, b: JsNumber) {
    a == b
  }

}

=== FILE: library_classifier.dfy ===
/** The emotion classifier of the client library (`detectEmotion` in
    src/lib/groq.ts): substring matching, and each keyword list scores the
    number of its entries that occur anywhere in the text. */
module LibraryClassifier {
  import opened Js
  import opened Text
  import opened Emotions
  import ServerClassifier

  const PositiveWords: seq<string> := [
    "feliz", "alegre", "ótimo", "excelente", "perfeito", "bom", "legal", "incrível",
    "maravilhoso", "fantástico", "yes", "great", "awesome", "wonderful", "amazing"]

  const NegativeWords: seq<string> := [
    "triste", "problema", "erro", "difícil", "complicado", "ruim", "péssimo", "terrível",
    "no", "bad", "terrible", "awful", "sorry", "unfortunately"]

  const SurpriseWords: seq<string> := [
    "uau", "incrível", "surpresa", "não sabia", "wow", "really", "seriously",
    "unbelievable", "incredible", "surprising"]

  const SleepyWords: seq<string> := [
    "sono", "cansado", "dormir", "descansar", "tired", "sleep", "rest", "exhausted"]

  /** The keyword list that scores for each emotion. */
  function Keywords(e: Emotion): seq<string> {
    match e
    case Happy => PositiveWords
    case Sad => NegativeWords
    case Surprised => SurpriseWords
    case ClosedEyes => SleepyWords
  }

  /** `list.filter(word => text.includes(word)).length`. */
  function Count(text: string, list: seq<string>): (r: nat)
    ensures r <= |list|
    ensures r == 0 <==> forall k :: 0 <= k < |list| ==> !Includes(text, list[k])
    ensures r == |list| <==> forall k :: 0 <= k < |list| ==> Includes(text, list[k])
  {
    if |list| == 0 then 0
    else (if Includes(text, list[0]) then 1 else 0) + Count(text, list[1..])
  }

  /** The four substring-count scores of a text. */
  function CountScores(text: string): Scores {
    var t := Lower(text);
    Scores(Count(t, PositiveWords), Count(t, NegativeWords),
           Count(t, SurpriseWords), Count(t, SleepyWords))
  }

  /** `detectEmotion` of the client library. */
  function DetectEmotion(text: string): (r: Emotion)
    ensures IsFirstMax(CountScores(text), r)
    ensures CountScores(text).Of(r) == 0 ==> r == Happy
  {
    Pick(CountScores(text))
  }

  // ---------------------------------------------------------------------
  // Counting
  // ---------------------------------------------------------------------

  /** Counting distributes over concatenated lists: each entry is counted on
      its own. */
  lemma {:induction false} CountAppend(text: string, a: seq<string>, b: seq<string>)
    ensures Count(text, a + b) == Count(text, a) + Count(text, b)
    decreases |a|
  {
    if |a| > 0 {
      assert (a + b)[0] == a[0];
      assert (a + b)[1..] == a[1..] + b;
      CountAppend(text, a[1..], b);
    } else {
      assert a + b == b;
    }
  }

  /** The text includes no entry of `list` other than `w`. */
  predicate OnlyIncluded(text: string, list: seq<string>, w: string) {
    forall k :: 0 <= k < |list| && Includes(text, list[k]) ==> list[k] == w
  }

  /** When `w` is the only entry of `list` the text includes and `w` is
      listed once, the count is 1. */
  lemma CountSingle(text: string, a: seq<string>, w: string, b: seq<string>)
    requires Includes(text, w) && w !in a && w !in b
    requires OnlyIncluded(text, a + [w] + b, w)
    ensures Count(text, a + [w] + b) == 1
  {
    var list := a + [w] + b;
    forall k | 0 <= k < |a| ensures !Includes(text, a[k]) {
      assert list[k] == a[k];
    }
    forall k | 0 <= k < |b| ensures !Includes(text, b[k]) {
      assert list[|a| + 1 + k] == b[k];
    }
    CountAppend(text, a + [w], b);
    CountAppend(text, a, [w]);
  }

  /** More text never lowers a score: every entry included before is
      still included. */
  lemma {:induction false} CountGrows(text: string, a: string, b: string, list: seq<string>)
    ensures Count(text, list) <= Count(a + text + b, list)
    decreases |list|
  {
    if |list| > 0 {
      if Includes(text, list[0]) {
        IncludesWithin(text, a, b, list[0]);
      }
      CountGrows(text, a, b, list[1..]);
    }
  }

  // ---------------------------------------------------------------------
  // Properties of the classification
  // ---------------------------------------------------------------------

  /** Each score counts the entries of its list found in the lower-cased
      text. */
  lemma ScoreOf(text: string, e: Emotion)
    ensures CountScores(text).Of(e) == Count(Lower(text), Keywords(e))
  {
  }

  /** No keyword of any list occurs in the lower-cased text: happy. */
  lemma NothingFoundIsHappy(text: string)
    requires forall e: Emotion, k :: 0 <= k < |Keywords(e)| ==> !Includes(Lower(text), Keywords(e)[k])
    ensures DetectEmotion(text) == Happy
  {
    ScoreOf(text, Happy);
    ScoreOf(text, Sad);
    ScoreOf(text, Surprised);
    ScoreOf(text, ClosedEyes);
  }

  /** `"incrível"` is in both the positive and the surprise list, so a text
      containing it scores at least 1 for both. */
  lemma IncrivelScoresTwice(text: string)
    requires Includes(Lower(text), "incrível")
    ensures CountScores(text).happy >= 1 && CountScores(text).surprised >= 1
  {
    assert PositiveWords[7] == "incrível";
    assert SurpriseWords[1] == "incrível";
  }

  /** A text whose only keyword is `"incrível"` ties happy with surprised
      at 1, and the tie goes to happy. */
  lemma IncrivelAloneIsHappy(text: string)
    requires Includes(Lower(text), "incrível")
    requires forall e: Emotion :: OnlyIncluded(Lower(text), Keywords(e), "incrível")
    ensures CountScores(text) == Scores(1, 0, 1, 0)
    ensures DetectEmotion(text) == Happy
  {
    var t := Lower(text);
    IncrivelPositive(t);
    IncrivelSurprise(t);
    IncrivelElsewhere(t);
    ScoreOf(text, Happy);
    ScoreOf(text, Sad);
    ScoreOf(text, Surprised);
    ScoreOf(text, ClosedEyes);
  }

  lemma IncrivelPositive(t: string)
    requires Includes(t, "incrível") && OnlyIncluded(t, Keywords(Happy), "incrível")
    ensures Count(t, Keywords(Happy)) == 1
  {
    var a := ["feliz", "alegre", "ótimo", "excelente", "perfeito", "bom", "legal"];
    var b := ["maravilhoso", "fantástico", "yes", "great", "awesome", "wonderful", "amazing"];
    assert PositiveWords == a + ["incrível"] + b;
    CountSingle(t, a, "incrível", b);
  }

  lemma IncrivelSurprise(t: string)
    requires Includes(t, "incrível") && OnlyIncluded(t, Keywords(Surprised), "incrível")
    ensures Count(t, Keywords(Surprised)) == 1
  {
    var a := ["uau"];
    var b := ["surpresa", "não sabia", "wow", "really", "seriously",
              "unbelievable", "incredible", "surprising"];
    assert SurpriseWords == a + ["incrível"] + b;
    CountSingle(t, a, "incrível", b);
  }

  lemma IncrivelElsewhere(t: string)
    requires OnlyIncluded(t, Keywords(Sad), "incrível")
    requires OnlyIncluded(t, Keywords(ClosedEyes), "incrível")
    ensures Count(t, Keywords(Sad)) == 0 && Count(t, Keywords(ClosedEyes)) == 0
  {
    assert "incrível" !in NegativeWords && "incrível" !in SleepyWords;
  }

  /** `"no"` is a negative keyword matched as a substring: any text with
      "no" anywhere, inside a word or not, scores for sad. */
  lemma NoInsideWordIsNegative(text: string)
    requires Includes(Lower(text), "no")
    ensures CountScores(text).sad >= 1
  {
    assert NegativeWords[8] == "no";
  }

  /** Appending text can only raise the four scores. */
  lemma ScoresGrow(text: string, more: string, e: Emotion)
    ensures CountScores(text).Of(e) <= CountScores(text + more).Of(e)
  {
    LowerAppend(text, more);
    CountGrowsRight(Lower(text), Lower(more), Keywords(e));
    ScoreOf(text, e);
    ScoreOf(text + more, e);
  }

  lemma CountGrowsRight(text: string, more: string, list: seq<string>)
    ensures Count(text, list) <= Count(text + more, list)
  {
    CountGrows(text, "", more, list);
    assert "" + text + more == text + more;
  }

  // ---------------------------------------------------------------------
  // The two classifiers disagree
  // ---------------------------------------------------------------------

  /** "nome" (name) contains "no": the library calls it sad, while the
      chat route, which matches whole words, calls it happy. */
  lemma ClassifiersDisagree()
    ensures DetectEmotion("nome") == Sad
    ensures ServerClassifier.DetectEmotion("nome") == Happy
  {
    LibraryNomeSad();
    ServerClassifier.NomeIsHappy();
  }

  lemma LibraryNomeSad()
    ensures DetectEmotion("nome") == Sad
  {
    NomeScores("nome");
  }

  lemma NomeScores(t: string)
    requires t == "nome"
    ensures CountScores(t) == Scores(0, 1, 0, 0)
  {
    assert Lower(t) == t;
    NomeHasNo(t);
    NomePositive(t);
    NomeSurprise(t);
    NomeSleepy(t);
    NomeOtherNegative(t);
    NomeNegative(t);
  }

  lemma NomeNegative(t: string)
    requires Includes(t, "no")
    requires forall w :: w in NegativeWords && w != "no" ==> !Includes(t, w)
    ensures Count(t, NegativeWords) == 1
  {
    var a := ["triste", "problema", "erro", "difícil", "complicado", "ruim", "péssimo", "terrível"];
    var b := ["bad", "terrible", "awful", "sorry", "unfortunately"];
    assert NegativeWords == a + ["no"] + b;
    CountSingle(t, a, "no", b);
  }

  lemma NomeHasNo(t: string)
    requires t == "nome"
    ensures Includes(t, "no")
  {
  }

  // Every keyword other than "no" is longer than "nome" or has a letter
  // "nome" lacks.

  lemma NomePositive(t: string)
    requires t == "nome"
    ensures Count(t, PositiveWords) == 0
  {
    ForeignCharNotIncluded(t, "bom", 0);
    ForeignCharNotIncluded(t, "yes", 0);
  }

  lemma NomeOtherNegative(t: string)
    requires t == "nome"
    ensures forall w :: w in NegativeWords && w != "no" ==> !Includes(t, w)
  {
    ForeignCharNotIncluded(t, "erro", 1);
    ForeignCharNotIncluded(t, "ruim", 0);
    ForeignCharNotIncluded(t, "bad", 0);
  }

  lemma NomeSurprise(t: string)
    requires t == "nome"
    ensures Count(t, SurpriseWords) == 0
  {
    ForeignCharNotIncluded(t, "uau", 0);
    ForeignCharNotIncluded(t, "wow", 0);
  }

  lemma NomeSleepy(t: string)
    requires t == "nome"
    ensures Count(t, SleepyWords) == 0
  {
    ForeignCharNotIncluded(t, "sono", 0);
    ForeignCharNotIncluded(t, "rest", 0);
  }
}

=== FILE: prompts.dfy ===
/** The fixed texts of the server side: the persona prompts (identical in
    src/app/api/chat/route.ts and src/lib/groq.ts), the language labels of the
    chat route and the two apologies. */
module Prompts {
  import opened Js

  /** The opening every persona prompt shares. */
  const Opening: string := "Você é Maria, uma assistente "

  const VoicePrompt: string := Opening + "de voz amigável e empática." +
    " Responda de forma natural e conversacional, como se estivesse falando diretamente com a pessoa. Use linguagem simples e seja calorosa. Mantenha as respostas curtas (máximo 2 frases) para facilitar a conversa por voz."

  const TextPrompt: string := Opening + "de texto inteligente e prestativa." +
    " Responda de forma clara e detalhada, fornecendo informações úteis. Seja profissional mas amigável. Pode dar respostas mais longas e detalhadas já que é comunicação por texto."

  const AccessibilityPrompt: string := Opening + "especializada" + " em acessibilidade e inclusão." +
    " Sempre considere diferentes necessidades e capacidades nas suas respostas. Seja especialmente atenta a questões de inclusão digital e acessibilidade. Responda de forma clara e estruturada."

  const GenericPrompt: string := Opening + "amigável e prestativa."

  /** Replaces an empty or missing completion: "Desculpe, não consegui
      processar sua mensagem.", written word by word. */
  const EmptyReplyText: string :=
    "Desculpe," + " não" + " consegui" + " processar" + " sua" + " mensagem."

  /** Replaces the whole reply when anything throws. */
  const ErrorReplyText: string := "Desculpe, ocorreu um erro. Tente novamente."

  /** The persona kinds a prompt exists for. */
  predicate IsPersona(avatarType: Value) {
    avatarType == Str("voice") || avatarType == Str("text") || avatarType == Str("accessibility")
  }

  /** `getSystemPrompt`: a `switch` on the persona with `===` cases, so a
      value of another type or any other string gets the generic prompt. */
  function SystemPrompt(avatarType: Value): (r: string)
    ensures r == VoicePrompt <==> avatarType == Str("voice")
    ensures r == TextPrompt <==> avatarType == Str("text")
    ensures r == AccessibilityPrompt <==> avatarType == Str("accessibility")
    ensures r == GenericPrompt <==> !IsPersona(avatarType)
  {
    PromptsDistinct();
    match avatarType
    case Str("voice") => VoicePrompt
    case Str("text") => TextPrompt
    case Str("accessibility") => AccessibilityPrompt
    case _ => GenericPrompt
  }

  /** The four prompts differ from each other. */
  lemma PromptsDistinct()
    ensures VoicePrompt != TextPrompt && VoicePrompt != AccessibilityPrompt
    ensures TextPrompt != AccessibilityPrompt
    ensures GenericPrompt != VoicePrompt && GenericPrompt != TextPrompt
    ensures GenericPrompt != AccessibilityPrompt
  {
    var n := |Opening|;
    assert VoicePrompt[n + 3] == 'v';
    assert TextPrompt[n + 3] == 't';
    assert AccessibilityPrompt[n] == 'e';
    assert GenericPrompt[n] == 'a';
  }

  /** `avatarType || 'text'`: a falsy persona means the text persona. */
  function PersonaOrText(avatarType: Value): (r: Value)
    ensures Truthy(r)
    ensures Truthy(avatarType) ==> r == avatarType
  {
    if Truthy(avatarType) then avatarType else Str("text")
  }

  /** `languageLabel[language || 'pt']`: the label of a known language code,
      `undefined` for any other key. The lookup turns a non-string language
      into its property key, so `["en"]` is looked up as "en". */
  function LanguageLabel(language: Value): (r: Option<string>)
    ensures !Truthy(language) ==> r == Some("Portuguese")
    ensures r.Some? <==> !Truthy(language) || PropertyKey(language) in {"pt", "en", "fr"}
    ensures Truthy(language) && PropertyKey(language) == "pt" ==> r == Some("Portuguese")
    ensures Truthy(language) && PropertyKey(language) == "en" ==> r == Some("English")
    ensures Truthy(language) && PropertyKey(language) == "fr" ==> r == Some("French")
  {
    if !Truthy(language) then Some("Portuguese")
    else match PropertyKey(language)
      case "pt" => Some("Portuguese")
      case "en" => Some("English")
      case "fr" => Some("French")
      case _ => None
  }

  /** A one-element array holding a code gets that code's label. */
  lemma ArrayLanguageIsLabelled()
    ensures LanguageLabel(NonString(true, "en")) == Some("English")
    ensures LanguageLabel(NonString(true, "[object Object]")).None?
  {
  }

  /** The chat route's system prompt: the persona prompt followed by the
      instruction to answer in the requested language. */
  function RouteSystemPrompt(avatarType: Value, language: Value): (r: string)
    ensures exists k: nat :: k <= |r| && r[..k] == SystemPrompt(PersonaOrText(avatarType))
    ensures !Truthy(language) || PropertyKey(language) == "pt" ==>
      r == SystemPrompt(PersonaOrText(avatarType)) + " Always respond in " + "Portuguese" + "."
    ensures Truthy(language) && PropertyKey(language) == "en" ==>
      r == SystemPrompt(PersonaOrText(avatarType)) + " Always respond in " + "English" + "."
    ensures Truthy(language) && PropertyKey(language) == "fr" ==>
      r == SystemPrompt(PersonaOrText(avatarType)) + " Always respond in " + "French" + "."
    ensures LanguageLabel(language).None? ==>
      r == SystemPrompt(PersonaOrText(avatarType)) + " Always respond in " + "undefined" + "."
  {
    var p := SystemPrompt(PersonaOrText(avatarType));
    var r := p + " Always respond in " + Stringify(LanguageLabel(language)) + ".";
    assert r[..|p|] == p;
    r
  }
}

=== FILE: server_classifier.dfy ===
/** The emotion classifier of the chat route (`detectEmotion` in
    src/app/api/chat/route.ts): whole-word matching, and each keyword list
    scores 1 when any word of the text is in it and 0 otherwise. */
module ServerClassifier {
  import opened Text
  import opened Emotions
  import Prompts

  const PositiveWords: seq<string> := [
    "feliz", "alegre", "ótimo", "excelente", "perfeito", "maravilhoso", "fantástico",
    "yes", "great", "awesome", "wonderful", "amazing", "happy", "glad", "joy",
    "delighted", "joyeux", "heureux", "ravi", "super"]

  const NegativeWords: seq<string> := [
    "triste", "deprimido", "chorar", "choro", "lágrimas", "melancolia", "desesperado",
    "infeliz", "misérable", "sad", "unhappy", "crying", "tears", "melancholy", "depressed"]

  const SurpriseWords: seq<string> := [
    "uau", "wow", "surpresa", "surpreso", "incrédulo", "chocado", "really", "seriously",
    "unbelievable", "incredible", "surprising", "surprise", "surpris", "étonnant",
    "surprenant", "oh mon dieu", "oh my god"]

  const SleepyWords: seq<string> := [
    "sono", "cansado", "dormir", "descansar", "sonolento", "tired", "sleep", "rest",
    "exhausted", "dormir", "fatigué", "sommeil", "sleepy"]

  /** The keyword list that scores for each emotion. */
  function Keywords(e: Emotion): seq<string> {
    match e
    case Happy => PositiveWords
    case Sad => NegativeWords
    case Surprised => SurpriseWords
    case ClosedEyes => SleepyWords
  }

  /** Some token is, character for character, an entry of the list. */
  predicate AnyListed(tokens: seq<string>, list: seq<string>) {
    exists t :: t in tokens && t in list
  }

  /** `textWords.some(word => list.includes(word)) ? 1 : 0`. */
  function Presence(tokens: seq<string>, list: seq<string>): nat {
    if AnyListed(tokens, list) then 1 else 0
  }

  /** The four presence scores of a text. */
  function TokenScores(text: string): Scores {
    var tokens := Split(Lower(text));
    Scores(Presence(tokens, PositiveWords), Presence(tokens, NegativeWords),
           Presence(tokens, SurpriseWords), Presence(tokens, SleepyWords))
  }

  /** `detectEmotion` of the chat route. */
  function DetectEmotion(text: string): (r: Emotion)
    ensures IsFirstMax(TokenScores(text), r)
    ensures TokenScores(text).Of(r) == 0 ==> r == Happy
  {
    Pick(TokenScores(text))
  }

  // ---------------------------------------------------------------------
  // What the classifier means, stated on the text itself
  // ---------------------------------------------------------------------

  /** Some entry of `list` occurs in the lower-cased text as a whole,
      whitespace-delimited word. */
  predicate Found(list: seq<string>, text: string) {
    exists k :: 0 <= k < |list| && NoSpace(list[k]) && IsWord(list[k], Lower(text))
  }

  /** No keyword is the empty string. */
  predicate EntriesNonEmpty(list: seq<string>) {
    forall k :: 0 <= k < |list| ==> |list[k]| > 0
  }

  lemma KeywordsNonEmpty(e: Emotion)
    ensures EntriesNonEmpty(Keywords(e))
  {
  }

  /** A list scores exactly when one of its single-word entries occurs in
      the text as a whole word; an entry containing a space never scores. */
  lemma PresenceIsFound(text: string, list: seq<string>)
    requires EntriesNonEmpty(list)
    ensures AnyListed(Split(Lower(text)), list) <==> Found(list, text)
  {
    var tokens := Split(Lower(text));
    if AnyListed(tokens, list) {
      var t :| t in tokens && t in list;
      var k :| 0 <= k < |list| && list[k] == t;
      SplitWords(Lower(text), t);
      assert NoSpace(list[k]) && IsWord(list[k], Lower(text));
    }
    if Found(list, text) {
      var k :| 0 <= k < |list| && NoSpace(list[k]) && IsWord(list[k], Lower(text));
      SplitWords(Lower(text), list[k]);
      assert list[k] in tokens && list[k] in list;
    }
  }

  /** The chat route's classification: the first of happy, sad, surprised,
      closed_eyes whose list has a word in the text, and happy when no list
      has one. */
  lemma DetectEmotionMeaning(text: string)
    ensures var h, s, u, c := Found(PositiveWords, text), Found(NegativeWords, text),
                              Found(SurpriseWords, text), Found(SleepyWords, text);
      && (DetectEmotion(text) == Happy <==> h || (!s && !u && !c))
      && (DetectEmotion(text) == Sad <==> !h && s)
      && (DetectEmotion(text) == Surprised <==> !h && !s && u)
      && (DetectEmotion(text) == ClosedEyes <==> !h && !s && !u && c)
  {
    KeywordsNonEmpty(Happy);
    KeywordsNonEmpty(Sad);
    KeywordsNonEmpty(Surprised);
    KeywordsNonEmpty(ClosedEyes);
    PresenceIsFound(text, PositiveWords);
    PresenceIsFound(text, NegativeWords);
    PresenceIsFound(text, SurpriseWords);
    PresenceIsFound(text, SleepyWords);
  }

  /** Scores are presence flags: each is 0 or 1 however often a keyword
      repeats. */
  lemma ScoresArePresence(text: string, e: Emotion)
    ensures TokenScores(text).Of(e) <= 1
    ensures TokenScores(text).Of(e) == 1 <==> Found(Keywords(e), text)
  {
    KeywordsNonEmpty(e);
    PresenceIsFound(text, Keywords(e));
  }

  /** A text in which no keyword is a whole word is classified happy. */
  lemma NoKeywordIsHappy(text: string)
    requires forall e :: !Found(Keywords(e), text)
    ensures DetectEmotion(text) == Happy
  {
    ScoresArePresence(text, Happy);
    ScoresArePresence(text, Sad);
    ScoresArePresence(text, Surprised);
    ScoresArePresence(text, ClosedEyes);
    assert TokenScores(text).Of(DetectEmotion(text)) == 0;
  }

  /** The multi-word surprise entries can never score: every token is free
      of whitespace. */
  lemma MultiWordEntriesNeverMatch(text: string)
    ensures "oh mon dieu" in SurpriseWords && "oh my god" in SurpriseWords
    ensures "oh mon dieu" !in Split(Lower(text)) && "oh my god" !in Split(Lower(text))
  {
    assert !NoSpace("oh mon dieu") by { assert IsSpace("oh mon dieu"[2]); }
    assert !NoSpace("oh my god") by { assert IsSpace("oh my god"[2]); }
  }

  // ---------------------------------------------------------------------
  // Worked examples
  // ---------------------------------------------------------------------

  /** Classifying a text whose lower-cased form is a list of words joined
      by single spaces only depends on which lists contain those words. */
  lemma ClassifyJoined(text: string, ws: seq<string>, e: Emotion)
    requires |ws| > 0 && forall k :: 0 <= k < |ws| ==> |ws[k]| > 0 && NoSpace(ws[k])
    requires Lower(text) == Join(ws)
    requires Pick(Scores(Presence(ws, PositiveWords), Presence(ws, NegativeWords),
                         Presence(ws, SurpriseWords), Presence(ws, SleepyWords))) == e
    ensures DetectEmotion(text) == e
  {
    SplitJoin(ws);
  }

  /** "triste" is a whole word of the sentence, so it is sad. */
  lemma SadSentence()
    ensures DetectEmotion("Estou muito triste hoje") == Sad
  {
    SadSentenceJoined();
    SadSentenceWords();
    SplitJoin(["estou", "muito", "triste", "hoje"]);
    SadSentenceScores("Estou muito triste hoje", ["estou", "muito", "triste", "hoje"]);
  }

  lemma SadSentenceJoined()
    ensures Lower("Estou muito triste hoje") == Join(["estou", "muito", "triste", "hoje"])
  {
  }

  lemma SadSentenceWords()
    ensures forall k :: 0 <= k < 4 ==>
      |["estou", "muito", "triste", "hoje"][k]| > 0 && NoSpace(["estou", "muito", "triste", "hoje"][k])
  {
  }

  lemma SadSentenceScores(text: string, ws: seq<string>)
    requires ws == ["estou", "muito", "triste", "hoje"] && Split(Lower(text)) == ws
    ensures DetectEmotion(text) == Sad
  {
    assert "triste" in ws && "triste" in NegativeWords;
    assert !AnyListed(ws, PositiveWords);
  }

  /** Matching is exact per token: "triste." is not "triste", so the
      sentence has no keyword and is happy. */
  lemma PunctuationHidesKeyword()
    ensures DetectEmotion("Estou triste.") == Happy
  {
    PunctuatedJoined();
    PunctuatedWords();
    SplitJoin(["estou", "triste."]);
    PunctuatedUnlisted();
    NoListedWordIsHappy("Estou triste.", ["estou", "triste."]);
  }

  lemma PunctuatedJoined()
    ensures Lower("Estou triste.") == Join(["estou", "triste."])
  {
  }

  lemma PunctuatedWords()
    ensures forall k :: 0 <= k < 2 ==> |["estou", "triste."][k]| > 0 && NoSpace(["estou", "triste."][k])
  {
  }

  /** The phrase "oh my god" splits into three words, none of which is a
      keyword, so the surprise entry "oh my god" does not make it surprised. */
  lemma PhraseIsHappy()
    ensures DetectEmotion("oh my god") == Happy
  {
    PhraseJoined();
    PhraseWords();
    SplitJoin(["oh", "my", "god"]);
    PhraseUnlisted();
    NoListedWordIsHappy("oh my god", ["oh", "my", "god"]);
  }

  lemma PhraseJoined()
    ensures Lower("oh my god") == Join(["oh", "my", "god"])
  {
  }

  lemma PhraseWords()
    ensures forall k :: 0 <= k < 3 ==> |["oh", "my", "god"][k]| > 0 && NoSpace(["oh", "my", "god"][k])
  {
  }

  /** "nome" is a single word in no list, so it is happy. */
  lemma NomeIsHappy()
    ensures DetectEmotion("nome") == Happy
  {
    assert Lower("nome") == Join(["nome"]);
    SplitJoin(["nome"]);
    NomeUnlisted();
    NoListedWordIsHappy("nome", ["nome"]);
  }

  /** The apology that replaces an empty completion has no keyword. */
  lemma EmptyReplyIsHappy()
    ensures DetectEmotion(Prompts.EmptyReplyText) == Happy
  {
    var ws := ["desculpe,", "não", "consegui", "processar", "sua", "mensagem."];
    ApologyLower(Prompts.EmptyReplyText);
    ApologyJoined(ws);
    ApologyWords(ws);
    SplitJoin(ws);
    ApologyUnlisted();
    NoListedWordIsHappy(Prompts.EmptyReplyText, ws);
  }

  lemma ApologyLower(t: string)
    requires t == Prompts.EmptyReplyText
    ensures Lower(t) == "desculpe," + " " + "não" + " " + "consegui" + " " + "processar" + " " + "sua" + " " + "mensagem."
  {
    LowerPieces("Desculpe,", " não", " consegui", " processar", " sua", " mensagem.");
    LowerApologyPieces();
    ApologySpaces();
  }

  lemma ApologySpaces()
    ensures "desculpe," + " não" + " consegui" + " processar" + " sua" + " mensagem."
         == "desculpe," + " " + "não" + " " + "consegui" + " " + "processar" + " " + "sua" + " " + "mensagem."
  {
  }

  lemma LowerApologyPieces()
    ensures Lower("Desculpe,") == "desculpe,"
    ensures Lower(" não") == " não"
    ensures Lower(" consegui") == " consegui"
    ensures Lower(" processar") == " processar"
    ensures Lower(" sua") == " sua"
    ensures Lower(" mensagem.") == " mensagem."
  {
  }

  lemma LowerPieces(a: string, b: string, c: string, d: string, e: string, f: string)
    ensures Lower(a + b + c + d + e + f) == Lower(a) + Lower(b) + Lower(c) + Lower(d) + Lower(e) + Lower(f)
  {
    LowerAppend(a + b + c + d + e, f);
    LowerAppend(a + b + c + d, e);
    LowerAppend(a + b + c, d);
    LowerAppend(a + b, c);
    LowerAppend(a, b);
  }

  lemma ApologyJoined(ws: seq<string>)
    requires ws == ["desculpe,", "não", "consegui", "processar", "sua", "mensagem."]
    ensures Join(ws) == "desculpe," + " " + "não" + " " + "consegui" + " " + "processar" + " " + "sua" + " " + "mensagem."
  {
    JoinCons("desculpe,", ["não", "consegui", "processar", "sua", "mensagem."]);
    JoinCons("não", ["consegui", "processar", "sua", "mensagem."]);
    JoinCons("consegui", ["processar", "sua", "mensagem."]);
    JoinCons("processar", ["sua", "mensagem."]);
    JoinCons("sua", ["mensagem."]);
    assert ws == ["desculpe,"] + ["não", "consegui", "processar", "sua", "mensagem."];
    assert ["não", "consegui", "processar", "sua", "mensagem."] == ["não"] + ["consegui", "processar", "sua", "mensagem."];
    assert ["consegui", "processar", "sua", "mensagem."] == ["consegui"] + ["processar", "sua", "mensagem."];
    assert ["processar", "sua", "mensagem."] == ["processar"] + ["sua", "mensagem."];
    assert ["sua", "mensagem."] == ["sua"] + ["mensagem."];
  }

  lemma ApologyWords(ws: seq<string>)
    requires ws == ["desculpe,", "não", "consegui", "processar", "sua", "mensagem."]
    ensures forall k :: 0 <= k < |ws| ==> |ws[k]| > 0 && NoSpace(ws[k])
  {
  }

  /** No keyword list has `t`. */
  predicate Unlisted(t: string) {
    t !in PositiveWords && t !in NegativeWords && t !in SurpriseWords && t !in SleepyWords
  }

  /** The tokens of the happy examples are in no keyword list. */
  lemma PunctuatedUnlisted()
    ensures forall t :: t in ["estou", "triste."] ==> Unlisted(t)
  {
  }

  lemma PhraseUnlisted()
    ensures forall t :: t in ["oh", "my", "god"] ==> Unlisted(t)
  {
  }

  lemma ApologyUnlisted()
    ensures forall t :: t in ["desculpe,", "não", "consegui", "processar", "sua", "mensagem."] ==> Unlisted(t)
  {
    ApologyHeadUnlisted();
    ApologyTailUnlisted();
  }

  lemma ApologyHeadUnlisted()
    ensures forall t :: t in ["desculpe,", "não", "consegui"] ==> Unlisted(t)
  {
  }

  lemma ApologyTailUnlisted()
    ensures forall t :: t in ["processar", "sua", "mensagem."] ==> Unlisted(t)
  {
  }

  lemma NomeUnlisted()
    ensures Unlisted("nome")
  {
  }

  /** Tokens none of which is in any list give happy. */
  lemma NoListedWordIsHappy(text: string, ws: seq<string>)
    requires Split(Lower(text)) == ws
    requires forall t :: t in ws ==> Unlisted(t)
    ensures DetectEmotion(text) == Happy
  {
    assert TokenScores(text) == Scores(0, 0, 0, 0);
  }

  /** The empty text has the single empty token and is happy. */
  lemma EmptyIsHappy()
    ensures DetectEmotion("") == Happy
  {
    var ws := [""];
    assert Lower("") == "";
    assert Split("") == ws;
    assert !AnyListed(ws, PositiveWords);
    assert !AnyListed(ws, NegativeWords);
    assert !AnyListed(ws, SurpriseWords);
    assert !AnyListed(ws, SleepyWords);
    assert TokenScores("") == Scores(0, 0, 0, 0);
  }
}

=== FILE: session.dfy ===
/** The page as a whole: every user event, timer and device event runs
    its handler and then the effects whose dependencies changed. The
    invariants here hold after every event of any run from a freshly
    mounted page. */
module Session {
  import opened Js
  import opened Text
  import opened Emotions
  import Voice
  import opened InteractiveAvatar
  import opened AvatarControls
  import ChatRoute
  import Prompts

  /** What can happen to the page. */
  datatype Event =
    | Typed(text: string)
    | Submitted(reply: Voice.Answer)
    | VoiceStarted(capture: Voice.Capture, answer: Voice.Answer)
    | MicButton(capture: Voice.Capture, answer: Voice.Answer)
    | TextButton
    | NewChatButton
    | StopButton
    | VolumeButton
    | VolumeBar(raw: JsNumber)
    | LanguageButton
    | LanguageFlag(language: Voice.Lang)
    | EmotionButton
    | EmotionEmoji(emotion: Emotion)
    | ReaderButton
    | WelcomeTimer
    | SpeechEnded

  /** The handler of an event. The input box and its form are rendered only
      while the text box is open, so typing and submitting need it open. */
  function Handle(ui: Ui, device: Voice.Device, ev: Event): Ui {
    match ev
    case Typed(text) => if ui.chat.open then InputChanged(ui, text) else ui
    case Submitted(reply) => if ui.chat.open then TextSubmit(ui, device, reply) else ui
    case VoiceStarted(capture, answer) => VoiceStart(ui, device, capture, answer)
    case MicButton(capture, answer) => MicPressed(ui, device, capture, answer)
    case TextButton => TextPressed(ui, device)
    case NewChatButton => NewChatPressed(ui, device)
    case StopButton => StopPressed(ui, device)
    case VolumeButton => ToggleVolumeSlider(ui, device)
    case VolumeBar(raw) => VolumeClicked(ui, device, raw)
    case LanguageButton => ToggleLanguageMenu(ui)
    case LanguageFlag(l) => LanguagePicked(ui, l)
    case EmotionButton => ToggleEmotionMenu(ui)
    case EmotionEmoji(e) => EmotionPicked(ui, e)
    case ReaderButton => ReaderToggled(ui, device)
    case WelcomeTimer => WelcomeTimerFired(ui)
    case SpeechEnded => UtteranceEnded(ui)
  }

  /** One event: its handler, then the effects. */
  function Step(ui: Ui, device: Voice.Device, ev: Event): Ui {
    Settle(ui, Handle(ui, device, ev), device)
  }

  function Run(ui: Ui, device: Voice.Device, evs: seq<Event>): Ui
    decreases |evs|
  {
    if |evs| == 0 then ui else Run(Step(ui, device, evs[0]), device, evs[1..])
  }

  // ---------------------------------------------------------------------
  // Invariant
  // ---------------------------------------------------------------------

  /** A volume the page can hold: in [0, 1], or NaN from a degenerate
      click position passing through the clamp. */
  predicate VolumeSetting(v: JsNumber) {
    UnitVolume(v) || v.NaN?
  }

  /** What holds after any run: no voice turn is left running, every user
      message is non-empty text, and the volumes are settings. The first
      holds only because a whole voice turn (capture, request and answer)
      is one step here: in the page the turn awaits, `processingVoice` is
      true meanwhile, and other handlers can run while it is. */
  predicate Calm(ui: Ui) {
    && !ui.processingVoice && UserTexts(ui.chat.history)
    && VolumeSetting(ui.audio.volume) && VolumeSetting(ui.audio.appliedVolume)
  }

  /** Between events: calm, no text turn running, and every user message in
      the history has its answer. The last two hold only because each
      handler here runs a whole turn, request and answer included, as one
      step: in the page a turn awaits its request, and other handlers can
      run while it does. */
  predicate Idle(ui: Ui) {
    && Calm(ui) && !ui.processingText
    && Settled(ui.chat.history)
  }

  /** A submit the page cuts short: a non-blank message sent from the open
      box in reader mode, with a synthesiser, at a volume an utterance
      rejects. */
  predicate CutsShort(ui: Ui, device: Voice.Device, ev: Event) {
    ev.Submitted? && ui.chat.open && Trim(ui.chat.input) != "" && AnnounceThrows(ui, device)
  }

  /** No submit of the run is cut short. */
  predicate NeverCutShort(ui: Ui, device: Voice.Device, evs: seq<Event>)
    decreases |evs|
  {
    |evs| == 0 || (!CutsShort(ui, device, evs[0]) && NeverCutShort(Step(ui, device, evs[0]), device, evs[1..]))
  }

  lemma InitialIdle()
    ensures Idle(Initial)
  {
  }

  /** The empty history is settled. */
  lemma EmptySettled()
    ensures Settled([])
  {
    assert Alternates([], 0);
  }

  /** Every handler keeps the page calm. */
  lemma HandleKeepsCalm(ui: Ui, device: Voice.Device, ev: Event)
    requires Calm(ui)
    ensures Calm(Handle(ui, device, ev))
  {
    match ev
    case Submitted(reply) =>
      var msg := Trim(ui.chat.input);
      if ui.chat.open && msg != "" {
        var h := ui.chat.history;
        assert UserTexts(h + [Entry(User, Some(msg))]);
        assert UserTexts(h + [Entry(User, Some(msg)), AnswerEntry(reply)]);
      }
    case _ =>
  }

  /** Every handler but a cut-short submit leaves an idle page idle. */
  lemma HandleKeepsIdle(ui: Ui, device: Voice.Device, ev: Event)
    requires Idle(ui) && !CutsShort(ui, device, ev)
    ensures Idle(Handle(ui, device, ev))
  {
    HandleKeepsCalm(ui, device, ev);
    match ev
    case Submitted(reply) =>
      var msg := Trim(ui.chat.input);
      if ui.chat.open && msg != "" {
        TurnKeepsSettled(ui.chat.history, msg, AnswerEntry(reply).message);
      }
    case MicButton(_, _) => EmptySettled();
    case TextButton => WelcomeSettled(ui.language);
    case NewChatButton => EmptySettled(); WelcomeSettled(ui.language);
    case WelcomeTimer =>
      if |ui.chat.pendingWelcome| > 0 {
        WelcomeSettled(ui.chat.pendingWelcome[0]);
      }
    case _ =>
  }

  /** The effects keep the page calm, and an idle page idle. */
  lemma SettleKeeps(before: Ui, after: Ui, device: Voice.Device)
    requires Calm(after)
    ensures Calm(Settle(before, after, device))
    ensures Idle(after) ==> Idle(Settle(before, after, device))
  {
    WelcomeSettled(after.language);
    assert UserTexts([Welcome(after.language)]);
  }

  /** A cut-short submit, effects included: the message is added and the
      box cleared, but nothing is sent and the text turn keeps running. */
  lemma CutShortStep(ui: Ui, device: Voice.Device, reply: Voice.Answer)
    requires CutsShort(ui, device, Submitted(reply))
    ensures var r := Step(ui, device, Submitted(reply));
      && r == ui.(processingText := true, chat := ui.chat.(history := r.chat.history, input := ""),
                  reader := ui.reader.(announcement := r.reader.announcement))
      && r.chat.history == ui.chat.history + [Entry(User, Some(Trim(ui.chat.input)))]
  {
  }

  /** Every event keeps the page calm. An idle page stays idle, except on a
      cut-short submit: that leaves its message unanswered, no request sent,
      and the text turn running. */
  lemma StepKeepsIdle(ui: Ui, device: Voice.Device, ev: Event)
    requires Idle(ui)
    ensures Calm(Step(ui, device, ev))
    ensures !CutsShort(ui, device, ev) ==> Idle(Step(ui, device, ev))
    ensures CutsShort(ui, device, ev) ==>
      var r := Step(ui, device, ev);
      && r.processingText && r.requests == ui.requests
      && r.chat.history == ui.chat.history + [Entry(User, Some(Trim(ui.chat.input)))]
      && !Settled(r.chat.history)
  {
    HandleKeepsCalm(ui, device, ev);
    SettleKeeps(ui, Handle(ui, device, ev), device);
    if !CutsShort(ui, device, ev) {
      HandleKeepsIdle(ui, device, ev);
    } else {
      CutShortStep(ui, device, ev.reply);
      UserLastUnsettled(ui.chat.history, Trim(ui.chat.input));
    }
  }

  /** A history that ends in a user message is not settled. */
  lemma UserLastUnsettled(h: seq<Entry>, msg: string)
    ensures !Settled(h + [Entry(User, Some(msg))])
  {
    var h' := h + [Entry(User, Some(msg))];
    assert h'[|h|].role == User;
    if WellFormed(h') {
      var k := Offset(h');
      assert |h| >= k by {
        if k == 1 {
          assert h'[0].role == Avatar;
        }
      }
      assert (|h| - k) % 2 == 0;
    }
  }

  lemma {:induction false} RunKeepsCalm(ui: Ui, device: Voice.Device, evs: seq<Event>)
    requires Calm(ui)
    ensures Calm(Run(ui, device, evs))
    decreases |evs|
  {
    if |evs| > 0 {
      HandleKeepsCalm(ui, device, evs[0]);
      SettleKeeps(ui, Handle(ui, device, evs[0]), device);
      RunKeepsCalm(Step(ui, device, evs[0]), device, evs[1..]);
    }
  }

  lemma {:induction false} RunKeepsIdle(ui: Ui, device: Voice.Device, evs: seq<Event>)
    requires Idle(ui)
    ensures NeverCutShort(ui, device, evs) ==> Idle(Run(ui, device, evs))
    decreases |evs|
  {
    if |evs| > 0 && NeverCutShort(ui, device, evs) {
      StepKeepsIdle(ui, device, evs[0]);
      RunKeepsIdle(Step(ui, device, evs[0]), device, evs[1..]);
    }
  }

  /** Whatever happens on a freshly mounted page, no voice turn is left
      running and the volume stays a setting. Unless a submit was cut
      short, no text turn is left running and no user message is left
      unanswered either. */
  lemma AlwaysIdle(device: Voice.Device, evs: seq<Event>)
    ensures Calm(Run(Initial, device, evs))
    ensures NeverCutShort(Initial, device, evs) ==> Idle(Run(Initial, device, evs))
  {
    InitialIdle();
    RunKeepsCalm(Initial, device, evs);
    RunKeepsIdle(Initial, device, evs);
  }

  /** Running `[ev] + evs` is one step, then the rest. */
  lemma RunFirst(ui: Ui, device: Voice.Device, ev: Event, evs: seq<Event>)
    ensures Run(ui, device, [ev] + evs) == Run(Step(ui, device, ev), device, evs)
    ensures NeverCutShort(ui, device, [ev] + evs)
        <==> !CutsShort(ui, device, ev) && NeverCutShort(Step(ui, device, ev), device, evs)
  {
    assert ([ev] + evs)[0] == ev && ([ev] + evs)[1..] == evs;
  }

  /** Switching reader mode on, effects included, changes nothing else. */
  lemma ReaderOnStep(ui: Ui, device: Voice.Device)
    requires !ui.reader.on
    ensures Step(ui, device, ReaderButton) == ui.(reader := ui.reader.(on := true))
  {
  }

  /** Showing the volume slider, effects included, changes nothing else. */
  lemma SliderStep(ui: Ui, device: Voice.Device)
    requires device.recognition && !ui.menus.volumeSlider
    ensures Step(ui, device, VolumeButton) == ui.(menus := ui.menus.(volumeSlider := true))
  {
  }

  /** A click on the shown slider while there is no speaking text only sets
      the clamped volume: the retarget guard needs speaking text. */
  lemma VolumeBarStep(ui: Ui, device: Voice.Device, raw: JsNumber)
    requires device.recognition && ui.menus.volumeSlider && !TruthyText(ui.audio.speakingText)
    ensures Step(ui, device, VolumeBar(raw)) == ui.(audio := ui.audio.(volume := Clamp01(raw)))
  {
  }

  /** Typing in the open box only sets the input. */
  lemma TypedStep(ui: Ui, device: Voice.Device, text: string)
    requires ui.chat.open
    ensures Step(ui, device, Typed(text)) == ui.(chat := ui.chat.(input := text))
  {
  }

  /** The text button on a page with an empty history, in reader mode at a
      volume the utterance accepts: the box opens, the greeting is shown and
      announced behind any pending speech. */
  lemma TextButtonStep(ui: Ui, device: Voice.Device)
    requires !ui.processingVoice && ui.chat.history == [] && !ui.chat.open
    requires ui.reader.on && device.synthesis && !VolumeRejected(ui.audio.volume) && !Speaking(ui.audio)
    ensures Step(ui, device, TextButton)
         == ui.(chat := ui.chat.(open := true, history := [Welcome(ui.language)]),
                reader := ui.reader.(announcement := WelcomeText(ui.language)),
                audio := ui.audio.(queue := ui.audio.queue + [AnnouncementSpeech(ui, WelcomeText(ui.language))]))
  {
  }

  /** Running `xs + ys` is running `xs`, then `ys`; no submit of it is cut
      short exactly when none of either part is. */
  lemma {:induction false} RunAppend(ui: Ui, device: Voice.Device, xs: seq<Event>, ys: seq<Event>)
    ensures Run(ui, device, xs + ys) == Run(Run(ui, device, xs), device, ys)
    ensures NeverCutShort(ui, device, xs + ys)
        <==> NeverCutShort(ui, device, xs) && NeverCutShort(Run(ui, device, xs), device, ys)
    decreases |xs|
  {
    if |xs| == 0 {
      assert xs + ys == ys;
    } else {
      assert (xs + ys)[0] == xs[0] && (xs + ys)[1..] == xs[1..] + ys;
      RunAppend(Step(ui, device, xs[0]), device, xs[1..], ys);
    }
  }

  /** Reader mode on, the text box opened, the slider shown, a click that
      makes NaN, and "oi" typed. */
  const NaNSetup: seq<Event> := [ReaderButton, TextButton, VolumeButton, VolumeBar(NaN), Typed("oi")]

  /** The set-up brings a fresh page to a greeting in the open box, "oi" in
      the input, and an announcement that will throw. */
  lemma NaNSetupReached(voices: seq<Voice.DeviceVoice>)
    ensures var device := Voice.Device(true, true, voices);
      var d := Run(Initial, device, NaNSetup);
      && d.chat.open && d.chat.input == "oi" && d.chat.history == [Welcome(Voice.Pt)]
      && d.requests == [] && AnnounceThrows(d, device)
      && NeverCutShort(Initial, device, NaNSetup)
  {
    var device := Voice.Device(true, true, voices);
    ReaderOnStep(Initial, device);
    var a := Initial.(reader := Initial.reader.(on := true));
    TextButtonStep(a, device);
    var a' := Step(a, device, TextButton);
    SliderStep(a', device);
    var b := a'.(menus := a'.menus.(volumeSlider := true));
    VolumeBarStep(b, device, NaN);
    var c := b.(audio := b.audio.(volume := NaN));
    TypedStep(c, device, "oi");
    var d := c.(chat := c.chat.(input := "oi"));
    RunFirst(d, device, Typed("oi"), []);
    assert Run(d, device, []) == d;
    RunFirst(c, device, Typed("oi"), []);
    RunFirst(b, device, VolumeBar(NaN), [Typed("oi")]);
    RunFirst(a', device, VolumeButton, [VolumeBar(NaN), Typed("oi")]);
    RunFirst(a, device, TextButton, [VolumeButton, VolumeBar(NaN), Typed("oi")]);
    RunFirst(Initial, device, ReaderButton, [TextButton, VolumeButton, VolumeBar(NaN), Typed("oi")]);
  }

  /** A submit that is cut short, run on its own: the message is shown,
      nothing is sent, and the page keeps processing. */
  lemma CutShortRun(ui: Ui, device: Voice.Device, reply: Voice.Answer)
    requires CutsShort(ui, device, Submitted(reply))
    ensures var r := Run(ui, device, [Submitted(reply)]);
      && r.chat.open == ui.chat.open && r.processingText && r.requests == ui.requests
      && r.chat.history == ui.chat.history + [Entry(User, Some(Trim(ui.chat.input)))]
      && !NeverCutShort(ui, device, [Submitted(reply)])
  {
    CutShortStep(ui, device, reply);
    RunFirst(ui, device, Submitted(reply), []);
    assert [Submitted(reply)] + [] == [Submitted(reply)];
  }

  /** A lone word has no padding to trim. */
  lemma TrimOi()
    ensures Trim("oi") == "oi"
  {
    assert SpaceRunEnd("oi", 0) == 0 && SpaceRunStart("oi", 2) == 2;
  }

  /** A cut-short submit is reachable: switch reader mode on, open the text
      box, click the volume bar at a position that makes NaN, and send a
      message. The page stays processing with the message unanswered and
      nothing sent. */
  lemma NaNReaderSubmitSticks(voices: seq<Voice.DeviceVoice>, reply: Voice.Answer)
    ensures var device := Voice.Device(true, true, voices);
      var evs := NaNSetup + [Submitted(reply)];
      var r := Run(Initial, device, evs);
      && r.chat.open && r.processingText && r.requests == []
      && r.chat.history == [Welcome(Voice.Pt), Entry(User, Some("oi"))]
      && !NeverCutShort(Initial, device, evs)
  {
    var device := Voice.Device(true, true, voices);
    NaNSetupReached(voices);
    var d := Run(Initial, device, NaNSetup);
    TrimOi();
    CutShortRun(d, device, reply);
    RunAppend(Initial, device, NaNSetup, [Submitted(reply)]);
  }

  /** The synthesiser never leaves the pause: no event resumes it. */
  lemma {:induction false} PausedForGood(ui: Ui, device: Voice.Device, evs: seq<Event>)
    requires ui.audio.paused
    ensures Run(ui, device, evs).audio.paused
    ensures !Speaking(Run(ui, device, evs).audio)
    decreases |evs|
  {
    if |evs| > 0 {
      StepKeepsPause(ui, device, evs[0]);
      PausedForGood(Step(ui, device, evs[0]), device, evs[1..]);
    }
  }

  /** No handler and no effect lifts the pause. */
  lemma StepKeepsPause(ui: Ui, device: Voice.Device, ev: Event)
    requires ui.audio.paused
    ensures Step(ui, device, ev).audio.paused
  {
    assert Handle(ui, device, ev).audio.paused;
  }

  // ---------------------------------------------------------------------
  // Scenarios
  // ---------------------------------------------------------------------

  /** A text turn against the chat route: the route's reply, whatever its
      status, is shown as an answer. The avatar always answers with some
      text and an emotion, and a failed completion shows the apology as
      sad. A submit whose announcement throws never reaches the route. */
  lemma TextTurnThroughRoute(ui: Ui, device: Voice.Device, completion: ChatRoute.Completion)
    requires Trim(ui.chat.input) != ""
    ensures var msg := Trim(ui.chat.input);
      var turn := ChatRoute.Post(ChatRoute.Body(Str(msg), Str("text"), Str(Voice.Code(ui.language))), completion);
      var r := TextSubmit(ui, device, Voice.Answered(turn.reply.emotion, turn.reply.response));
      AnnounceThrows(ui, device) ==>
        && r.requests == ui.requests && r.processingText
        && r.chat.history == ui.chat.history + [Entry(User, Some(msg))] && r.emotion == ui.emotion
    ensures !AnnounceThrows(ui, device) ==>
      var msg := Trim(ui.chat.input);
      var turn := ChatRoute.Post(ChatRoute.Body(Str(msg), Str("text"), Str(Voice.Code(ui.language))), completion);
      var r := TextSubmit(ui, device, Voice.Answered(turn.reply.emotion, turn.reply.response));
      && |r.chat.history| == |ui.chat.history| + 2
      && r.chat.history[|r.chat.history| - 1].message == turn.reply.response
      && turn.reply.response.Some? && turn.reply.response.value != ""
      && r.emotion == turn.reply.emotion && r.emotion.Some?
      && (completion.CompletionThrew? ==>
            r.chat.history[|r.chat.history| - 1] == Entry(Avatar, Some(Prompts.ErrorReplyText))
            && r.emotion == Some(Sad))
  {
    var msg := Trim(ui.chat.input);
    ChatRoute.RepliesCarryEmotion(ChatRoute.Body(Str(msg), Str("text"), Str(Voice.Code(ui.language))), completion);
  }

  /** New chat on a page with a history and no pending timer: the history
      is empty until the timer puts back the single welcome message of the
      language at the time of the click. */
  lemma NewChatThenTimer(ui: Ui, device: Voice.Device)
    requires |ui.chat.pendingWelcome| == 0
    ensures var r := WelcomeTimerFired(NewChatPressed(ui, device));
      r.chat.history == [Welcome(ui.language)] && r.chat.pendingWelcome == []
  {
  }

  /** New chat on an empty page with the language menu open: greeted at
      once, one timer pending, language and menu untouched. */
  lemma NewChatStep(ui: Ui, device: Voice.Device)
    requires |ui.chat.pendingWelcome| == 0 && |ui.chat.history| == 0
    ensures var a := Step(ui, device, NewChatButton);
      && a.chat.history == [Welcome(ui.language)] && a.language == ui.language
      && a.menus.language == ui.menus.language && a.chat.pendingWelcome == [ui.language]
      && a.chat.open
  {
    var h := NewChatPressed(ui, device);
    assert h.chat.history == [Welcome(ui.language)] && h.language == ui.language;
  }

  /** Picking a flag while the greeting is shown in the open text box
      translates it. */
  lemma FlagStep(a: Ui, device: Voice.Device, l: Voice.Lang)
    requires a.menus.language && a.chat.open && a.chat.history == [Welcome(a.language)]
    ensures var b := Step(a, device, LanguageFlag(l));
      && b.language == l && b.chat.history == [Welcome(l)]
      && b.chat.pendingWelcome == a.chat.pendingWelcome
  {
    var h := LanguagePicked(a, l);
    assert h.language == l && h.chat == a.chat;
  }

  /** The timer puts back the greeting of the language it captured. */
  lemma TimerStep(b: Ui, device: Voice.Device, l: Voice.Lang)
    requires b.chat.pendingWelcome == [l]
    ensures var c := Step(b, device, WelcomeTimer);
      c.language == b.language && c.chat.history == [Welcome(l)]
  {
    var h := WelcomeTimerFired(b);
    assert h.language == b.language && h.chat.history == [Welcome(l)];
  }

  /** The welcome timer keeps the language of the click: picking another
      language before it fires brings the old greeting back, although the
      language effect had already translated it. */
  lemma TimerKeepsOldLanguage(ui: Ui, device: Voice.Device, l: Voice.Lang)
    requires |ui.chat.pendingWelcome| == 0 && |ui.chat.history| == 0 && ui.menus.language
    requires l != ui.language
    ensures var a := Step(ui, device, NewChatButton);
      var b := Step(a, device, LanguageFlag(l));
      var c := Step(b, device, WelcomeTimer);
      && b.chat.history == [Welcome(l)]
      && c.language == l && c.chat.history == [Welcome(ui.language)]
  {
    var a := Step(ui, device, NewChatButton);
    NewChatStep(ui, device);
    FlagStep(a, device, l);
    TimerStep(Step(a, device, LanguageFlag(l)), device, ui.language);
  }
}

=== FILE: text.dfy ===
/** String operations the classifiers and the text box rely on, with the
    JavaScript semantics they are called with: `toLowerCase` (ASCII part),
    `split(/\s+/)`, `includes` and `trim`. */
module Text {

  /** The characters JavaScript's `\s` matches and `trim` removes: the
      ECMAScript WhiteSpace and LineTerminator code points. */
  predicate IsSpace(c: char) {
    c in Whitespace
  }

  const Whitespace: set<char> := {
    ' ', '\t', '\n', '\U{000B}', '\U{000C}', '\r', '\U{00A0}', '\U{1680}',
    '\U{2000}', '\U{2001}', '\U{2002}', '\U{2003}', '\U{2004}', '\U{2005}',
    '\U{2006}', '\U{2007}', '\U{2008}', '\U{2009}', '\U{200A}',
    '\U{2028}', '\U{2029}', '\U{202F}', '\U{205F}', '\U{3000}', '\U{FEFF}'
  }

  /** A string with no whitespace character in it. */
  predicate NoSpace(w: string) {
    forall i :: 0 <= i < |w| ==> !IsSpace(w[i])
  }

  // ---------------------------------------------------------------------
  // Lower-casing
  // ---------------------------------------------------------------------

  function LowerChar(c: char): (r: char)
    ensures 'A' <= c <= 'Z' ==> 'a' <= r <= 'z' && r as int - c as int == 32
    ensures !('A' <= c <= 'Z') ==> r == c
  {
    if 'A' <= c <= 'Z' then (c as int + 32) as char else c
  }

  /** `toLowerCase` restricted to ASCII letters; every other character is
      kept as it is. */
  function Lower(s: string): (r: string)
    ensures |r| == |s|
    ensures forall i :: 0 <= i < |s| ==> r[i] == LowerChar(s[i])
  {
    seq(|s|, i requires 0 <= i < |s| => LowerChar(s[i]))
  }

  /** Lower-casing works character by character, so it distributes over
      concatenation. */
  lemma LowerAppend(a: string, b: string)
    ensures Lower(a + b) == Lower(a) + Lower(b)
  {
  }

  /** Lower-casing neither creates nor removes whitespace, so it does not move
      word boundaries. */
  lemma LowerKeepsSpaces(s: string)
    ensures forall i :: 0 <= i < |s| ==> (IsSpace(Lower(s)[i]) <==> IsSpace(s[i]))
  {
  }

  // ---------------------------------------------------------------------
  // split(/\s+/)
  // ---------------------------------------------------------------------

  /** The end of the whitespace run of `s` that starts at `i`. */
  function SpaceRunEnd(s: string, i: nat): (j: nat)
    requires i <= |s|
    ensures i <= j <= |s|
    ensures forall k :: i <= k < j ==> IsSpace(s[k])
    ensures j < |s| ==> !IsSpace(s[j])
    decreases |s| - i
  {
    if i < |s| && IsSpace(s[i]) then SpaceRunEnd(s, i + 1) else i
  }

  /** The start of the whitespace run of `s` that ends just before `j`. */
  function SpaceRunStart(s: string, j: nat): (i: nat)
    requires j <= |s|
    ensures i <= j
    ensures forall k :: i <= k < j ==> IsSpace(s[k])
    ensures i > 0 ==> !IsSpace(s[i - 1])
  {
    if j > 0 && IsSpace(s[j - 1]) then SpaceRunStart(s, j - 1) else j
  }

  /** The suffix left after the leading whitespace run. */
  function DropSpaces(s: string): (r: string)
    ensures |r| <= |s| && r == s[|s| - |r|..]
    ensures forall i :: 0 <= i < |s| - |r| ==> IsSpace(s[i])
    ensures |r| > 0 ==> !IsSpace(r[0])
    ensures |s| > 0 && IsSpace(s[0]) ==> |r| < |s|
  {
    s[SpaceRunEnd(s, 0)..]
  }

  /** Splitting `s` when the field being read so far is `cur`. */
  function SplitFrom(s: string, cur: string): (r: seq<string>)
    decreases |s|
  {
    if |s| == 0 then [cur]
    else if IsSpace(s[0]) then [cur] + SplitFrom(DropSpaces(s), "")
    else SplitFrom(s[1..], cur + [s[0]])
  }

  /** `s.split(/\s+/)`: the fields between maximal whitespace runs. As in
      JavaScript, a leading or trailing run yields an empty first or last
      field, and `""` splits into `[""]`. */
  function Split(s: string): (r: seq<string>)
    ensures |r| > 0
    ensures forall k :: 0 <= k < |r| ==> NoSpace(r[k])
  {
    SplitFromFields("", s);
    SplitFrom(s, "")
  }

  lemma {:induction false} SplitFromFields(cur: string, s: string)
    requires NoSpace(cur)
    ensures |SplitFrom(s, cur)| > 0
    ensures forall k :: 0 <= k < |SplitFrom(s, cur)| ==> NoSpace(SplitFrom(s, cur)[k])
    decreases |s|
  {
    if |s| == 0 {
    } else if IsSpace(s[0]) {
      SplitFromFields("", DropSpaces(s));
    } else {
      SplitFromFields(cur + [s[0]], s[1..]);
    }
  }

  /** Reading a whitespace-free stretch only extends the current field. */
  lemma {:induction false} SplitFromField(w: string, s: string, cur: string)
    requires NoSpace(w)
    ensures SplitFrom(w + s, cur) == SplitFrom(s, cur + w)
    decreases |w|
  {
    if |w| > 0 {
      assert (w + s)[1..] == w[1..] + s;
      SplitFromField(w[1..], s, cur + [w[0]]);
      assert cur + [w[0]] + w[1..] == cur + w;
    } else {
      assert w + s == s && cur + w == cur;
    }
  }

  /** A text without whitespace is a single field. */
  lemma SplitUnspaced(w: string)
    requires NoSpace(w)
    ensures Split(w) == [w]
  {
    SplitFromField(w, "", "");
    assert w + "" == w && "" + w == w;
  }

  /** A whitespace-free word followed by one space and a text that does not
      start with whitespace splits into that word and the text's fields. */
  lemma SplitWordSpace(w: string, c: char, r: string)
    requires NoSpace(w) && IsSpace(c)
    requires |r| > 0 ==> !IsSpace(r[0])
    ensures Split(w + [c] + r) == [w] + Split(r)
  {
    SplitFromField(w, [c] + r, "");
    assert w + [c] + r == w + ([c] + r);
    assert "" + w == w;
    assert DropSpaces([c] + r) == r by {
      assert ([c] + r)[1..] == r;
    }
  }

  /** Words joined by single spaces. */
  function Join(ws: seq<string>): string
    requires |ws| > 0
  {
    if |ws| == 1 then ws[0] else ws[0] + " " + Join(ws[1..])
  }

  lemma JoinCons(w: string, rest: seq<string>)
    requires |rest| > 0
    ensures Join([w] + rest) == w + " " + Join(rest)
  {
    assert ([w] + rest)[1..] == rest;
  }

  /** Splitting undoes joining, for non-empty whitespace-free words. */
  lemma {:induction false} SplitJoin(ws: seq<string>)
    requires |ws| > 0
    requires forall k :: 0 <= k < |ws| ==> |ws[k]| > 0 && NoSpace(ws[k])
    ensures Split(Join(ws)) == ws
  {
    if |ws| == 1 {
      SplitUnspaced(ws[0]);
    } else {
      SplitJoin(ws[1..]);
      var rest := Join(ws[1..]);
      assert |rest| > 0 ==> !IsSpace(rest[0]) by {
        JoinStartsWithWord(ws[1..]);
      }
      SplitWordSpace(ws[0], ' ', rest);
      assert ws[0] + " " + rest == ws[0] + [' '] + rest;
      assert [ws[0]] + ws[1..] == ws;
    }
  }

  lemma {:induction false} JoinStartsWithWord(ws: seq<string>)
    requires |ws| > 0 && |ws[0]| > 0
    ensures |Join(ws)| > 0 && Join(ws)[0] == ws[0][0]
  {
  }

  /** `w` occurs in `s` at `i` as a whole word: bounded on each side by the
      end of the string or by whitespace. */
  predicate IsWordAt(w: string, s: string, i: int) {
    && 0 <= i && i + |w| <= |s|
    && s[i..i + |w|] == w
    && (i == 0 || IsSpace(s[i - 1]))
    && (i + |w| == |s| || IsSpace(s[i + |w|]))
  }

  /** `w` occurs somewhere in `s` as a whole word. */
  predicate IsWord(w: string, s: string) {
    exists i :: 0 <= i <= |s| && IsWordAt(w, s, i)
  }

  /** A non-empty word without whitespace is a field of `split(/\s+/)`
      exactly when it occurs in the text delimited by whitespace or the ends
      of the text. */
  lemma SplitWords(s: string, w: string)
    requires |w| > 0 && NoSpace(w)
    ensures w in Split(s) <==> IsWord(w, s)
  {
    SplitFromWords(s, "", w);
    assert "" + s == s;
  }

  lemma {:induction false} SplitFromWords(s: string, cur: string, w: string)
    requires NoSpace(cur) && |w| > 0 && NoSpace(w)
    ensures w in SplitFrom(s, cur) <==> IsWord(w, cur + s)
    decreases |s|
  {
    if |s| == 0 {
      assert cur + s == cur;
      WordsOfField(w, cur);
    } else if IsSpace(s[0]) {
      var r := DropSpaces(s);
      SplitFromWords(r, "", w);
      assert "" + r == r;
      WordsAcrossSpaces(w, cur, s, r);
    } else {
      SplitFromWords(s[1..], cur + [s[0]], w);
      assert (cur + [s[0]]) + s[1..] == cur + s;
    }
  }

  /** The only word of a whitespace-free string is the string itself. */
  lemma WordsOfField(w: string, t: string)
    requires NoSpace(t) && |w| > 0
    ensures IsWord(w, t) <==> w == t
  {
    if w == t {
      assert t[0..|t|] == t;
      assert IsWordAt(w, t, 0);
    }
    if IsWord(w, t) {
      var i :| 0 <= i <= |t| && IsWordAt(w, t, i);
      if i > 0 {
        assert false;
      }
      if |w| < |t| {
        assert false;
      }
    }
  }

  /** In `cur + s`, where `s` is a whitespace run followed by `r`, the
      whitespace-free words are `cur` (when it is one) and the words of `r`. */
  lemma WordsAcrossSpaces(w: string, cur: string, s: string, r: string)
    requires NoSpace(cur) && |w| > 0 && NoSpace(w)
    requires |s| > 0 && IsSpace(s[0]) && r == DropSpaces(s)
    ensures IsWord(w, cur + s) <==> w == cur || IsWord(w, r)
  {
    var d := SuffixAfterSpaces(cur, s, r);
    if w == cur {
      assert (cur + s)[0..|w|] == cur;
      assert IsWordAt(w, cur + s, 0);
    }
    if IsWord(w, r) {
      var j :| 0 <= j <= |r| && IsWordAt(w, r, j);
      WordShifted(w, cur + s, r, j, d);
    }
    if IsWord(w, cur + s) {
      var i :| 0 <= i <= |cur + s| && IsWordAt(w, cur + s, i);
      WordSplitsAt(w, cur, s, r, d, i);
    }
  }

  /** Where the suffix `r` starts in `cur + s`, and the whitespace before it. */
  lemma SuffixAfterSpaces(cur: string, s: string, r: string) returns (d: int)
    requires |s| > 0 && IsSpace(s[0]) && r == DropSpaces(s)
    ensures d == |cur| + |s| - |r| && |cur| < d <= |cur + s|
    ensures (cur + s)[d..] == r && IsSpace((cur + s)[d - 1])
    ensures forall x :: |cur| <= x < d ==> IsSpace((cur + s)[x])
  {
    d := |cur| + |s| - |r|;
    assert (cur + s)[d..] == s[|s| - |r|..];
  }

  lemma WordSplitsAt(w: string, cur: string, s: string, r: string, d: int, i: int)
    requires NoSpace(cur) && |w| > 0 && NoSpace(w)
    requires |s| > 0 && IsSpace(s[0])
    requires |cur| < d <= |cur + s| && (cur + s)[d..] == r && IsSpace((cur + s)[d - 1])
    requires forall x :: |cur| <= x < d ==> IsSpace((cur + s)[x])
    requires IsWordAt(w, cur + s, i)
    ensures w == cur || IsWord(w, r)
  {
    if i < |cur| {
      WordInField(w, cur, s, i);
    } else if i < d {
      CharOfWord(w, cur + s, i, 0);
      assert false;
    } else {
      WordUnshifted(w, cur + s, r, i, d);
    }
  }

  /** A word of `cur + s` that starts inside `cur`, where `s` starts with
      whitespace, is `cur` itself. */
  lemma WordInField(w: string, cur: string, s: string, i: int)
    requires NoSpace(cur) && |w| > 0 && NoSpace(w)
    requires |s| > 0 && IsSpace(s[0])
    requires 0 <= i < |cur| && IsWordAt(w, cur + s, i)
    ensures w == cur
  {
    var t := cur + s;
    if i > 0 {
      assert false;
    }
    if |w| > |cur| {
      CharOfWord(w, t, i, |cur|);
      assert false;
    }
    if |w| < |cur| {
      assert false;
    }
    assert w == t[0..|cur|] == cur;
  }

  /** The characters of a word occurrence are those of the word. */
  lemma CharOfWord(w: string, t: string, i: int, x: int)
    requires IsWordAt(w, t, i) && 0 <= x < |w|
    ensures t[i + x] == w[x]
  {
    assert t[i..i + |w|][x] == t[i + x];
  }

  /** A word of `r` is a word of any `t` that ends with `r` and has
      whitespace just before it. */
  lemma WordShifted(w: string, t: string, r: string, j: int, d: int)
    requires 0 < d <= |t| && t[d..] == r && IsSpace(t[d - 1])
    requires IsWordAt(w, r, j)
    ensures IsWordAt(w, t, j + d)
  {
    forall k | 0 <= k < |w|
      ensures t[j + d + k] == w[k]
    {
      assert t[d..][j + k] == r[j..j + |w|][k];
    }
    assert t[j + d..j + d + |w|] == w;
    if j > 0 {
      assert t[j + d - 1] == r[j - 1];
    }
    if j + |w| < |r| {
      assert t[j + d + |w|] == r[j + |w|];
    }
  }

  /** A word of `t` that starts inside its suffix `r` is a word of `r`. */
  lemma WordUnshifted(w: string, t: string, r: string, i: int, d: int)
    requires 0 < d <= |t| && t[d..] == r && IsSpace(t[d - 1])
    requires d <= i && IsWordAt(w, t, i)
    ensures IsWordAt(w, r, i - d)
  {
    var j := i - d;
    assert r[j..j + |w|] == t[i..i + |w|];
    if j > 0 {
      assert r[j - 1] == t[i - 1];
    }
    if j + |w| < |r| {
      assert r[j + |w|] == t[i + |w|];
    }
  }

  // ---------------------------------------------------------------------
  // includes
  // ---------------------------------------------------------------------

  /** `w` occurs in `s` starting at index `i`. */
  predicate OccursAt(w: string, s: string, i: int) {
    0 <= i && i + |w| <= |s| && s[i..i + |w|] == w
  }

  /** `s.includes(w)`, computed by scanning `s` from the left. */
  function Includes(s: string, w: string): bool
    decreases |s|
  {
    if |w| > |s| then false
    else if s[..|w|] == w then true
    else Includes(s[1..], w)
  }

  /** The scan finds `w` exactly when `w` occurs at some index of `s`. */
  lemma {:induction false} IncludesOccurs(s: string, w: string)
    ensures Includes(s, w) <==> exists i :: 0 <= i <= |s| && OccursAt(w, s, i)
    decreases |s|
  {
    if |w| > |s| {
    } else if s[..|w|] == w {
      assert OccursAt(w, s, 0);
    } else {
      IncludesOccurs(s[1..], w);
      if Includes(s[1..], w) {
        var i :| 0 <= i <= |s[1..]| && OccursAt(w, s[1..], i);
        assert s[i + 1..i + 1 + |w|] == s[1..][i..i + |w|];
        assert OccursAt(w, s, i + 1);
      }
      if exists i :: 0 <= i <= |s| && OccursAt(w, s, i) {
        var i :| 0 <= i <= |s| && OccursAt(w, s, i);
        assert i != 0;
        assert s[1..][i - 1..i - 1 + |w|] == s[i..i + |w|];
        assert OccursAt(w, s[1..], i - 1);
      }
    }
  }

  /** A word with a character that `s` lacks is not included in `s`. */
  lemma ForeignCharNotIncluded(s: string, w: string, j: int)
    requires 0 <= j < |w| && w[j] !in s
    ensures !Includes(s, w)
  {
    IncludesOccurs(s, w);
  }

  /** Appending text around `s` never loses a word `s` includes. */
  lemma IncludesWithin(s: string, a: string, b: string, w: string)
    requires Includes(s, w)
    ensures Includes(a + s + b, w)
  {
    IncludesOccurs(s, w);
    var i :| 0 <= i <= |s| && OccursAt(w, s, i);
    var t := a + s + b;
    assert t[|a| + i..|a| + i + |w|] == s[i..i + |w|];
    assert OccursAt(w, t, |a| + i);
    IncludesOccurs(t, w);
  }

  // ---------------------------------------------------------------------
  // trim
  // ---------------------------------------------------------------------

  /** `r` occurs in `s` at `a` with nothing but whitespace around it. */
  predicate PaddedAt(r: string, s: string, a: int) {
    && OccursAt(r, s, a)
    && (forall i :: 0 <= i < a ==> IsSpace(s[i]))
    && (forall i :: a + |r| <= i < |s| ==> IsSpace(s[i]))
  }

  /** `s.trim()`: the text without its leading and trailing whitespace. */
  function Trim(s: string): (r: string)
    ensures |r| == 0 <==> forall i :: 0 <= i < |s| ==> IsSpace(s[i])
    ensures |r| > 0 ==> !IsSpace(r[0]) && !IsSpace(r[|r| - 1])
    ensures exists a :: PaddedAt(r, s, a)
  {
    var a := SpaceRunEnd(s, 0);
    if a == |s| then
      assert PaddedAt("", s, 0);
      ""
    else
      var b := SpaceRunStart(s, |s|);
      assert PaddedAt(s[a..b], s, a);
      s[a..b]
  }

  /** Trimming a trimmed text changes nothing. */
  lemma TrimIdempotent(s: string)
    ensures Trim(Trim(s)) == Trim(s)
  {
    var r := Trim(s);
    var r2 := Trim(r);
    if |r| > 0 {
      assert |r2| > 0 by {
        assert !IsSpace(r[0]);
      }
      var a :| PaddedAt(r2, r, a);
      assert !IsSpace(r[0]) && !IsSpace(r[|r| - 1]);
      assert r2 == r[a..a + |r2|];
    }
  }
}

=== FILE: voice.dfy ===
/** `startVoiceInteraction` of src/lib/voice.ts: one spoken turn, from
    capture to synthesis. The speech devices and the chat request are given
    as outcomes; the turn is the ordered list of calls it makes on its
    callbacks and devices. */
module Voice {
  import opened Js
  import opened Emotions

  /** The interface languages. */
  datatype Lang = Pt | En | Fr

  /** The code the client passes around for a language. */
  function Code(l: Lang): string {
    match l
    case Pt => "pt"
    case En => "en"
    case Fr => "fr"
  }

  /** `languageMap[language]`: the locale of a known code, `undefined` for
      any other key. */
  function LocaleFor(code: string): (r: Option<string>)
    ensures r.Some? <==> code in {"pt", "en", "fr"}
    ensures r == Some("pt-BR") <==> code == "pt"
    ensures r == Some("en-US") <==> code == "en"
    ensures r == Some("fr-FR") <==> code == "fr"
  {
    if code == "pt" then Some("pt-BR")
    else if code == "en" then Some("en-US")
    else if code == "fr" then Some("fr-FR")
    else None
  }

  /** `languageMap[language] || 'pt-BR'`, the locale given to the recogniser
      and to the utterance. */
  function DeviceLocale(code: string): (r: string)
    ensures LocaleFor(code).Some? ==> r == LocaleFor(code).value
    ensures LocaleFor(code).None? ==> r == "pt-BR"
  {
    LocaleFor(code).GetOr("pt-BR")
  }

  /** Every language of the interface has a locale, so the fallback never
      applies to the client's own calls. */
  lemma ClientLanguagesMapped(l: Lang)
    ensures LocaleFor(Code(l)).Some?
    ensures DeviceLocale(Code(l)) == LocaleFor(Code(l)).value
  {
  }

  /** The volume used when the requested one is unusable. */
  const DefaultVolume: real := 0.9

  /** `Number.isFinite(volume) && volume >= 0 && volume <= 1 ? volume : 0.9`. */
  function SanitizeVolume(volume: JsNumber): (r: real)
    ensures 0.0 <= r <= 1.0
    ensures volume.Finite? && 0.0 <= volume.r <= 1.0 ==> r == volume.r
    ensures !(volume.Finite? && 0.0 <= volume.r <= 1.0) ==> r == DefaultVolume
  {
    if volume.Finite? && 0.0 <= volume.r <= 1.0 then volume.r else DefaultVolume
  }

  /** `s.startsWith(p)`. */
  predicate StartsWith(s: string, p: string) {
    |p| <= |s| && s[..|p|] == p
  }

  /** `locale.split('-')[0]`: the text before the first `-`, or all of it. */
  function BaseSubtag(locale: string): (r: string)
    ensures StartsWith(locale, r)
    ensures '-' !in r
    ensures |r| < |locale| ==> locale[|r|] == '-'
  {
    if |locale| == 0 || locale[0] == '-' then ""
    else [locale[0]] + BaseSubtag(locale[1..])
  }

  /** The base subtags of the three locales are the language codes. */
  lemma BaseOfLocales(l: Lang)
    ensures BaseSubtag(LocaleFor(Code(l)).value) == Code(l)
  {
    var loc := LocaleFor(Code(l)).value;
    var b := BaseSubtag(loc);
    assert loc[2] == '-' && loc[0] != '-' && loc[1] != '-';
  }

  /** A voice the device offers. */
  datatype DeviceVoice = DeviceVoice(name: string, lang: string)

  /** `voices.find(v => v.lang.startsWith(base))`. */
  function ChooseVoice(voices: seq<DeviceVoice>, base: string): (r: Option<DeviceVoice>)
    ensures r.Some? ==> r.value in voices && StartsWith(r.value.lang, base)
  {
    if |voices| == 0 then None
    else if StartsWith(voices[0].lang, base) then Some(voices[0])
    else ChooseVoice(voices[1..], base)
  }

  /** The chosen voice is the FIRST match: nothing before it matches, and
      no voice is chosen only when none matches. */
  lemma {:induction false} ChooseVoiceFirst(voices: seq<DeviceVoice>, base: string)
    ensures ChooseVoice(voices, base).None? <==> forall i :: 0 <= i < |voices| ==> !StartsWith(voices[i].lang, base)
    ensures ChooseVoice(voices, base).Some? ==>
      exists i :: 0 <= i < |voices| && voices[i] == ChooseVoice(voices, base).value
        && forall j :: 0 <= j < i ==> !StartsWith(voices[j].lang, base)
  {
    if |voices| > 0 && !StartsWith(voices[0].lang, base) {
      ChooseVoiceFirst(voices[1..], base);
      if ChooseVoice(voices, base).Some? {
        var i :| 0 <= i < |voices[1..]| && voices[1..][i] == ChooseVoice(voices, base).value
          && forall j :: 0 <= j < i ==> !StartsWith(voices[1..][j].lang, base);
        assert voices[i + 1] == ChooseVoice(voices, base).value;
        assert forall j :: 1 <= j < i + 1 ==> voices[j] == voices[1..][j - 1];
      }
      if ChooseVoice(voices, base).None? {
        assert forall i :: 1 <= i < |voices| ==> voices[i] == voices[1..][i - 1];
      }
    } else if |voices| > 0 {
      assert voices[0] == ChooseVoice(voices, base).value;
    }
  }

  /** What the speech devices of the browser offer. */
  datatype Device = Device(recognition: bool, synthesis: bool, voices: seq<DeviceVoice>)

  /** How capture ended: a transcript, or the recogniser's error. */
  datatype Capture = Heard(transcript: string) | CaptureFailed

  /** How the chat request ended: `fetch` or `res.json()` threw, or the
      parsed reply with its two fields (absent in a 400 reply). */
  datatype Answer = AnswerFailed | Answered(emotion: Option<Emotion>, response: Option<string>)

  /** An utterance handed to the synthesiser. */
  datatype Utterance = Utterance(text: Option<string>, lang: string, rate: real, pitch: real,
                                 volume: real, voice: Option<DeviceVoice>)

  /** One call the interaction makes, in order. */
  datatype Call =
    | SetListening(listening: bool)
    | SetProcessing(processing: bool)
    | StartRecognition(lang: string)
    | PostChat(message: string, avatarType: string, language: string)
    | SetEmotion(emotion: Option<Emotion>)
    | SetVoiceResponse(response: Option<string>)
    | SetSpeakingText(text: Option<string>)
    | Speak(utterance: Utterance)

  /** The response shown when the turn throws. */
  const VoiceErrorText: string := "Desculpe, ocorreu um erro ao processar a mensagem."

  /** The turn ended with an answer from the chat route. */
  predicate Answers(device: Device, capture: Capture, answer: Answer) {
    device.recognition && capture.Heard? && answer.Answered?
  }

  /** The calls made inside the `try` block, including the `catch` when
      something throws. */
  function Attempt(device: Device, language: string, volume: JsNumber, capture: Capture,
                   answer: Answer, hasSpeakingSetter: bool): seq<Call>
  {
    var failed := [SetVoiceResponse(Some(VoiceErrorText))];
    if !device.recognition then failed
    else
      var started := [StartRecognition(DeviceLocale(language))];
      match capture
      case CaptureFailed => started + failed
      case Heard(transcript) =>
        var posted := started + [PostChat(transcript, "voice", language)];
        match answer
        case AnswerFailed => posted + failed
        case Answered(emotion, response) =>
          var shown := posted + [SetEmotion(emotion), SetVoiceResponse(response)]
                       + (if hasSpeakingSetter then [SetSpeakingText(response)] else []);
          if !device.synthesis then shown
          else if LocaleFor(language).None? && |device.voices| > 0 then
            // `languageMap[language].split` throws inside the `find` callback
            shown + failed
          else
            var base := if LocaleFor(language).Some? then BaseSubtag(LocaleFor(language).value) else "";
            var voice := if LocaleFor(language).Some? then ChooseVoice(device.voices, base) else None;
            shown + [Speak(Utterance(response, DeviceLocale(language), 0.9, 1.0,
                                     SanitizeVolume(volume), voice))]
  }

  /** The calls a turn makes when the chat route answered, up to the
      synthesis step. */
  function Shown(language: string, transcript: string, answer: Answer): seq<Call>
    requires answer.Answered?
  {
    [StartRecognition(DeviceLocale(language)), PostChat(transcript, "voice", language),
     SetEmotion(answer.emotion), SetVoiceResponse(answer.response)]
  }

  /** `startVoiceInteraction`: flags up, the attempt, flags down in `finally`. */
  function Interaction(device: Device, language: string, volume: JsNumber, capture: Capture,
                       answer: Answer, hasSpeakingSetter: bool): (calls: seq<Call>)
    ensures |calls| >= 5
    ensures calls[..2] == [SetListening(true), SetProcessing(true)]
    ensures calls[|calls| - 2..] == [SetListening(false), SetProcessing(false)]
    ensures forall i :: 2 <= i < |calls| - 2 ==> !calls[i].SetListening? && !calls[i].SetProcessing?
    ensures !Answers(device, capture, answer) ==>
      && calls[|calls| - 3] == SetVoiceResponse(Some(VoiceErrorText))
      && forall i :: 0 <= i < |calls| ==> !calls[i].SetEmotion? && !calls[i].Speak?
    ensures Answers(device, capture, answer) ==>
      |calls| >= 8 && calls[2..6] == Shown(language, capture.transcript, answer)
    ensures forall i :: 0 <= i < |calls| && calls[i].PostChat? ==>
      capture.Heard? && calls[i] == PostChat(capture.transcript, "voice", language)
    ensures forall i :: 0 <= i < |calls| && calls[i].Speak? ==>
      && Answers(device, capture, answer) && device.synthesis && i == |calls| - 3
      && calls[i].utterance.text == answer.response
      && calls[i].utterance.volume == SanitizeVolume(volume)
    ensures Answers(device, capture, answer) && device.synthesis && LocaleFor(language).Some? ==>
      calls[|calls| - 3].Speak?
    ensures Answers(device, capture, answer) && hasSpeakingSetter ==>
      |calls| >= 9 && calls[6] == SetSpeakingText(answer.response)
    ensures forall i :: 0 <= i < |calls| && calls[i].SetSpeakingText? ==>
      Answers(device, capture, answer) && hasSpeakingSetter && i == 6
      && calls[i] == SetSpeakingText(answer.response)
  {
    var a := Attempt(device, language, volume, capture, answer, hasSpeakingSetter);
    AttemptShape(device, language, volume, capture, answer, hasSpeakingSetter);
    var c := Frame(a);
    FramedFlags(a, c);
    FramedOutcome(device, language, volume, capture, answer, a, c);
    FramedCalls(device, language, volume, capture, answer, a, c);
    var ok := Answers(device, capture, answer) && hasSpeakingSetter;
    var e := if answer.Answered? then answer.response else None;
    AttemptSpeakingTextOnce(device, language, volume, capture, answer, hasSpeakingSetter);
    FramedSpeakingText(ok, e, a, c);
    c
  }

  /** The attempt between the two flag pairs. */
  function Frame(a: seq<Call>): seq<Call> {
    [SetListening(true), SetProcessing(true)] + a + [SetListening(false), SetProcessing(false)]
  }

  /** Framing the attempt shifts its calls by two. */
  lemma Framed(a: seq<Call>, c: seq<Call>)
    requires c == Frame(a)
    ensures |c| == |a| + 4
    ensures c[..2] == [SetListening(true), SetProcessing(true)]
    ensures c[|c| - 2..] == [SetListening(false), SetProcessing(false)]
    ensures forall i :: 0 <= i < |a| ==> c[i + 2] == a[i]
    ensures |a| >= 4 ==> c[2..6] == a[..4]
  {
  }

  /** What the attempt does, stated on its own calls. */
  predicate AttemptFacts(device: Device, language: string, volume: JsNumber, capture: Capture,
                         answer: Answer, a: seq<Call>)
  {
    && |a| >= 1
    && (forall i :: 0 <= i < |a| ==> !a[i].SetListening? && !a[i].SetProcessing?)
    && (!Answers(device, capture, answer) ==>
          a[|a| - 1] == SetVoiceResponse(Some(VoiceErrorText))
          && forall i :: 0 <= i < |a| ==> !a[i].SetEmotion? && !a[i].Speak?)
    && (Answers(device, capture, answer) ==>
          |a| >= 4 && a[..4] == Shown(language, capture.transcript, answer))
    && (forall i :: 0 <= i < |a| && a[i].PostChat? ==>
          capture.Heard? && a[i] == PostChat(capture.transcript, "voice", language))
    && (forall i :: 0 <= i < |a| && a[i].Speak? ==>
          && Answers(device, capture, answer) && device.synthesis && i == |a| - 1
          && a[i].utterance.text == answer.response
          && a[i].utterance.volume == SanitizeVolume(volume))
    && (Answers(device, capture, answer) && device.synthesis && LocaleFor(language).Some? ==>
          a[|a| - 1].Speak?)
  }

  /** The flags come only from the frame. */
  lemma FramedFlags(a: seq<Call>, c: seq<Call>)
    requires c == Frame(a) && |a| >= 1
    requires forall i :: 0 <= i < |a| ==> !a[i].SetListening? && !a[i].SetProcessing?
    ensures |c| >= 5
    ensures c[..2] == [SetListening(true), SetProcessing(true)]
    ensures c[|c| - 2..] == [SetListening(false), SetProcessing(false)]
    ensures forall i :: 2 <= i < |c| - 2 ==> !c[i].SetListening? && !c[i].SetProcessing?
  {
    Framed(a, c);
    forall i | 2 <= i < |c| - 2
      ensures !c[i].SetListening? && !c[i].SetProcessing?
    {
      assert c[i] == a[i - 2];
    }
  }

  /** How the turn ended, read through the frame. */
  lemma FramedOutcome(device: Device, language: string, volume: JsNumber, capture: Capture,
                      answer: Answer, a: seq<Call>, c: seq<Call>)
    requires c == Frame(a) && AttemptFacts(device, language, volume, capture, answer, a)
    ensures !Answers(device, capture, answer) ==>
      && c[|c| - 3] == SetVoiceResponse(Some(VoiceErrorText))
      && forall i :: 0 <= i < |c| ==> !c[i].SetEmotion? && !c[i].Speak?
    ensures Answers(device, capture, answer) ==>
      |c| >= 8 && c[2..6] == Shown(language, capture.transcript, answer)
    ensures Answers(device, capture, answer) && device.synthesis && LocaleFor(language).Some? ==>
      c[|c| - 3].Speak?
  {
    Framed(a, c);
    assert c[|c| - 3] == a[|a| - 1];
    if !Answers(device, capture, answer) {
      forall i | 0 <= i < |c|
        ensures !c[i].SetEmotion? && !c[i].Speak?
      {
        if 2 <= i < |c| - 2 {
          assert c[i] == a[i - 2];
        }
      }
    }
  }

  /** The request and the utterance, read through the frame. */
  lemma FramedCalls(device: Device, language: string, volume: JsNumber, capture: Capture,
                    answer: Answer, a: seq<Call>, c: seq<Call>)
    requires c == Frame(a) && AttemptFacts(device, language, volume, capture, answer, a)
    ensures forall i :: 0 <= i < |c| && c[i].PostChat? ==>
      capture.Heard? && c[i] == PostChat(capture.transcript, "voice", language)
    ensures forall i :: 0 <= i < |c| && c[i].Speak? ==>
      && Answers(device, capture, answer) && device.synthesis && i == |c| - 3
      && c[i].utterance.text == answer.response
      && c[i].utterance.volume == SanitizeVolume(volume)
  {
    Framed(a, c);
    forall i | 0 <= i < |c| && (c[i].PostChat? || c[i].Speak?)
      ensures 2 <= i < |c| - 2 && c[i] == a[i - 2]
    {
    }
  }

  lemma AttemptShape(device: Device, language: string, volume: JsNumber, capture: Capture,
                     answer: Answer, hasSpeakingSetter: bool)
    ensures AttemptFacts(device, language, volume, capture, answer,
                         Attempt(device, language, volume, capture, answer, hasSpeakingSetter))
  {
    if Answers(device, capture, answer) {
      AnsweredShape(device, language, volume, capture.transcript, answer, hasSpeakingSetter);
    }
  }

  lemma AnsweredShape(device: Device, language: string, volume: JsNumber, transcript: string,
                      answer: Answer, hasSpeakingSetter: bool)
    requires device.recognition && answer.Answered?
    ensures var a := Attempt(device, language, volume, Heard(transcript), answer, hasSpeakingSetter);
      && |a| >= 4 && a[..4] == Shown(language, transcript, answer)
      && (forall i :: 0 <= i < |a| && a[i].Speak? ==>
            && device.synthesis && i == |a| - 1
            && a[i].utterance.text == answer.response
            && a[i].utterance.volume == SanitizeVolume(volume))
      && (device.synthesis && LocaleFor(language).Some? ==> a[|a| - 1].Speak?)
  {
    var shown := Shown(language, transcript, answer)
                 + (if hasSpeakingSetter then [SetSpeakingText(answer.response)] else []);
    assert forall i :: 0 <= i < |shown| ==> !shown[i].Speak?;
    assert Attempt(device, language, volume, Heard(transcript), answer, hasSpeakingSetter)[..|shown|] == shown;
  }

  /** The emotion is set at most once: by the call right after the request,
      to the emotion of the answer. */
  lemma EmotionSetOnce(device: Device, language: string, volume: JsNumber, capture: Capture,
                       answer: Answer, hasSpeakingSetter: bool)
    ensures var calls := Interaction(device, language, volume, capture, answer, hasSpeakingSetter);
      forall i :: 0 <= i < |calls| && calls[i].SetEmotion? ==> i == 4 && calls[i] == SetEmotion(answer.emotion)
  {
    if Answers(device, capture, answer) {
      var a := Attempt(device, language, volume, capture, answer, hasSpeakingSetter);
      AttemptEmotionOnce(device, language, volume, capture, answer, hasSpeakingSetter);
      FramedEmotion(answer.emotion, a, Interaction(device, language, volume, capture, answer, hasSpeakingSetter));
    }
  }

  lemma FramedEmotion(e: Option<Emotion>, a: seq<Call>, c: seq<Call>)
    requires c == Frame(a)
    requires forall i :: 0 <= i < |a| && a[i].SetEmotion? ==> i == 2 && a[i] == SetEmotion(e)
    ensures forall i :: 0 <= i < |c| && c[i].SetEmotion? ==> i == 4 && c[i] == SetEmotion(e)
  {
    Framed(a, c);
    forall i | 0 <= i < |c| && c[i].SetEmotion?
      ensures i == 4 && c[i] == SetEmotion(e)
    {
      assert 2 <= i < |c| - 2 && c[i] == a[i - 2];
    }
  }

  /** Within the attempt, only the third call sets the emotion. */
  lemma AttemptEmotionOnce(device: Device, language: string, volume: JsNumber, capture: Capture,
                           answer: Answer, hasSpeakingSetter: bool)
    ensures var a := Attempt(device, language, volume, capture, answer, hasSpeakingSetter);
      forall i :: 0 <= i < |a| && a[i].SetEmotion? ==> i == 2 && a[i] == SetEmotion(answer.emotion)
  {
    var a := Attempt(device, language, volume, capture, answer, hasSpeakingSetter);
    if Answers(device, capture, answer) {
      var shown := Shown(language, capture.transcript, answer)
                   + (if hasSpeakingSetter then [SetSpeakingText(answer.response)] else []);
      assert a[..|shown|] == shown;
      assert forall i :: |shown| <= i < |a| ==> !a[i].SetEmotion?;
      forall i | 0 <= i < |a| && a[i].SetEmotion?
        ensures i == 2 && a[i] == SetEmotion(answer.emotion)
      {
        if i < |shown| {
          assert a[i] == shown[i];
        }
      }
    } else {
      AttemptShape(device, language, volume, capture, answer, hasSpeakingSetter);
    }
  }

  /** Within the attempt, the speaking text is set only when the turn
      answered and the setter was given, by the fifth call, to the
      response. */
  lemma AttemptSpeakingTextOnce(device: Device, language: string, volume: JsNumber, capture: Capture,
                                answer: Answer, hasSpeakingSetter: bool)
    ensures var a := Attempt(device, language, volume, capture, answer, hasSpeakingSetter);
      && (Answers(device, capture, answer) && hasSpeakingSetter ==>
            |a| >= 5 && a[4] == SetSpeakingText(answer.response))
      && forall i :: 0 <= i < |a| && a[i].SetSpeakingText? ==>
           Answers(device, capture, answer) && hasSpeakingSetter && i == 4
           && a[i] == SetSpeakingText(answer.response)
  {
    var a := Attempt(device, language, volume, capture, answer, hasSpeakingSetter);
    if Answers(device, capture, answer) {
      var shown := Shown(language, capture.transcript, answer)
                   + (if hasSpeakingSetter then [SetSpeakingText(answer.response)] else []);
      assert a[..|shown|] == shown;
      assert forall i :: |shown| <= i < |a| ==> !a[i].SetSpeakingText?;
      forall i | 0 <= i < |a| && a[i].SetSpeakingText?
        ensures hasSpeakingSetter && i == 4 && a[i] == SetSpeakingText(answer.response)
      {
        assert a[i] == shown[i];
      }
      if hasSpeakingSetter {
        assert a[4] == shown[4];
      }
    }
  }

  /** The speaking-text call, read through the frame. */
  lemma FramedSpeakingText(ok: bool, e: Option<string>, a: seq<Call>, c: seq<Call>)
    requires c == Frame(a)
    requires ok ==> |a| >= 5 && a[4] == SetSpeakingText(e)
    requires forall i :: 0 <= i < |a| && a[i].SetSpeakingText? ==> ok && i == 4 && a[i] == SetSpeakingText(e)
    ensures ok ==> |c| >= 9 && c[6] == SetSpeakingText(e)
    ensures forall i :: 0 <= i < |c| && c[i].SetSpeakingText? ==> ok && i == 6 && c[i] == SetSpeakingText(e)
  {
    Framed(a, c);
    forall i | 0 <= i < |c| && c[i].SetSpeakingText?
      ensures ok && i == 6 && c[i] == SetSpeakingText(e)
    {
      assert 2 <= i < |c| - 2 && c[i] == a[i - 2];
    }
  }

  /** A client language speaks in its locale, with the first device voice
      whose language starts with the language code. */
  lemma ClientTurnSpeaks(device: Device, l: Lang, volume: JsNumber, transcript: string,
                         answer: Answer, hasSpeakingSetter: bool)
    requires device.recognition && device.synthesis && answer.Answered?
    ensures var calls := Interaction(device, Code(l), volume, Heard(transcript), answer, hasSpeakingSetter);
      calls[|calls| - 3] == Speak(Utterance(answer.response, LocaleFor(Code(l)).value, 0.9, 1.0,
                                            SanitizeVolume(volume), ChooseVoice(device.voices, Code(l))))
  {
    var a := Attempt(device, Code(l), volume, Heard(transcript), answer, hasSpeakingSetter);
    ClientAttemptSpeaks(device, l, volume, transcript, answer, hasSpeakingSetter);
    Framed(a, Interaction(device, Code(l), volume, Heard(transcript), answer, hasSpeakingSetter));
  }

  /** The same, on the attempt: its last call speaks. */
  lemma ClientAttemptSpeaks(device: Device, l: Lang, volume: JsNumber, transcript: string,
                            answer: Answer, hasSpeakingSetter: bool)
    requires device.recognition && device.synthesis && answer.Answered?
    ensures var a := Attempt(device, Code(l), volume, Heard(transcript), answer, hasSpeakingSetter);
      |a| > 0 && a[|a| - 1] == Speak(Utterance(answer.response, LocaleFor(Code(l)).value, 0.9, 1.0,
                                              SanitizeVolume(volume), ChooseVoice(device.voices, Code(l))))
  {
    BaseOfLocales(l);
    var shown := Shown(Code(l), transcript, answer)
                 + (if hasSpeakingSetter then [SetSpeakingText(answer.response)] else []);
    assert Attempt(device, Code(l), volume, Heard(transcript), answer, hasSpeakingSetter)
        == shown + [Speak(Utterance(answer.response, LocaleFor(Code(l)).value, 0.9, 1.0,
                                    SanitizeVolume(volume), ChooseVoice(device.voices, Code(l))))];
  }

  /** An unmapped language code reaches the voice lookup with `undefined`:
      when the device has voices the lookup throws after the emotion was
      set, the apology replaces the response and nothing is spoken. */
  lemma UnmappedLanguageFailsLate(device: Device, language: string, volume: JsNumber,
                                  transcript: string, answer: Answer, hasSpeakingSetter: bool)
    requires device.recognition && device.synthesis && |device.voices| > 0 && answer.Answered?
    requires LocaleFor(language).None?
    ensures var calls := Interaction(device, language, volume, Heard(transcript), answer, hasSpeakingSetter);
      && calls[4] == SetEmotion(answer.emotion)
      && calls[|calls| - 3] == SetVoiceResponse(Some(VoiceErrorText))
      && forall i :: 0 <= i < |calls| ==> !calls[i].Speak?
  {
    var calls := Interaction(device, language, volume, Heard(transcript), answer, hasSpeakingSetter);
    assert calls[2..6][2] == calls[4];
  }
}
